=== FILE: README.md ===
# Category hierarchy engine of laravel-product-manager, in Dafny

This project models the category engine of a Laravel product catalogue and
proves properties of the model. Categories are named records. Each has an
optional `parent_id` that points at another category, so the store forms a
forest. The model covers five parts:

- **`CategoryRepository`**: the store. It keeps records in insertion order,
  assigns auto-increment ids, and offers `create`, `findById`, `all`,
  `getRootCategories` and the `children` relation.
- **`CategoryService`**:
  - `createCategory` with its parent-existence check;
  - `updateCategory`, whose checks run in a fixed order: missing category,
    self-parent, missing parent, then the upward cycle walk `isDescendant`;
  - `deleteCategory`, which moves every direct child up to the deleted
    category's own parent.
- **`CategoryHierarchy`**: `getWithHierarchy` / `buildHierarchy`, which turn
  the store into nested nodes, roots first.
- **`CreateCategoryRequest`**: the form rules for a category's name and
  parent.
- **`CreateProductCommand`**: the part of `product:create` that deals with
  categories:
  - the price guard;
  - parsing the `--categories` option (split on commas, trim, drop falsy
    tokens, cast to int);
  - the existence check that fails on the first unknown id.

`PhpStrings` models the PHP built-ins these depend on: `trim`, `explode`,
`implode`, string truthiness and the `(int)` cast.

Every operation is a pure function of the store. It returns either a new
store or a typed error, and an error carries no store, so a failed call
writes nothing. `Db` is a subset type of `Store`. It guarantees the database's
primary-key discipline: ids are positive, unique, and below the
auto-increment counter.

The central invariant is `StoreInvariants.Consistent`: every parent pointer
names a stored category (`ParentsExist`), and following parent pointers from
any category stops (`Acyclic`). `Ancestor(s, x, k)` is the category reached
from `x` after `k` upward hops.

`isDescendant` is modelled by `Climb`, a walk that carries the set of ids
not yet visited. The PHP `while` loop runs forever when it enters a cycle
that does not contain the target. The walk reports that case as `Looping`,
and `updateCategory` turns it into the extra error `AncestorWalkDiverges`.
The walk reports `Looping` only when the chain above the proposed parent
never stops, and `UpdateAcceptedExactly` proves that this error never occurs
in an acyclic store.

`buildHierarchy` recurses on children and needs no acyclicity premise,
exactly like the PHP code. The recursion starts from roots only, so it ends
on any store: the ghost arguments `above` and `depth` record how far below
its root each category sits.

## Model

| member | source | states |
|---|---|---|
| CategoryRepository.FindById | app/Repositories/CategoryRepository.php:19-22 | returns a record exactly when the id is stored; the record found carries that id and is the stored one, otherwise null |
| CategoryRepository.AllCountsEveryCategory | app/Repositories/CategoryRepository.php:24-27 | `all` lists every stored id exactly once, so its count equals the number of stored categories |
| CategoryRepository.RootCategories | app/Repositories/CategoryRepository.php:29-32 | a record is listed exactly when it is stored and its parent is null; no id is listed twice |
| CategoryRepository.Children | app/Services/CategoryService.php:95 | a record is a child of `id` exactly when it is stored with `parent_id` equal to `id`; no id is listed twice |
| CategoryRepository.ChildrenAreThoseWithParent | tests/Unit/CategoryRepositoryTest.php:73-86 | a stored record is among the children of `id` if and only if its stored parent is `id` |
| CategoryRepository.Create | app/Repositories/CategoryRepository.php:14-17 | adds exactly one record, with a fresh positive id and the given name and parent, at the end of `all`; every other id finds what it found before |
| CategoryService.ClimbCorrect | app/Services/CategoryService.php:107-117 | on every store, the upward loop answers true exactly when the target is a strict ancestor; it answers false only when the chain of parents stops, and loops only when that chain never stops, which makes the store cyclic |
| CategoryService.IsDescendantCorrect | app/Services/CategoryService.php:99-120 | on every store, `isDescendant(p, c)` is true exactly when `c` is a strict ancestor of `p`; a missing `p` gives false, and false means the chain above `p` stops; the loop fails to terminate exactly when `c` is not a strict ancestor of `p` and the chain above `p` never stops, which makes the store cyclic |
| CategoryService.CreateCategory | app/Services/CategoryService.php:14-27 | fails with ParentNotFound exactly when a non-null parent is not stored; otherwise adds one record with a fresh id, the given name and parent, and leaves all other records alone |
| CategoryService.UpdateCategory | app/Services/CategoryService.php:29-60 | checks in order: missing id, self-parent, missing parent, parent below the category; a stored id with a null parent always succeeds; for a stored parent other than the category, CyclicHierarchy exactly when the category is a strict ancestor of the parent, and AncestorWalkDiverges exactly when it is not and the parent's chain never stops; an accepted parent's chain stops; success writes name and parent of that one record, nothing else, and keeps the order of `all` |
| CategoryService.Replace | app/Services/CategoryService.php:54-57 | the one record with the id is replaced, every other id finds what it found before, and `all` lists the ids in the same order |
| CategoryService.ReparentChildren | app/Services/CategoryService.php:70-75 | every direct child of the deleted category gets the deleted category's parent; every other record keeps its fields; `all` lists the ids in the same order |
| CategoryService.Remove | app/Services/CategoryService.php:77 | only the deleted id disappears; every other id finds what it found before; `all` lists the remaining ids in their former order |
| CategoryRepository.OrderWhere | app/Services/CategoryService.php:77 | dropping the records with one id drops exactly that id from the listed order and keeps the others in sequence |
| CategoryService.DeleteCategory | app/Services/CategoryService.php:62-78 | fails with CategoryNotFound exactly on a missing id; otherwise removes it, moves its direct children to its former parent (possibly null), keeps every other record, leaves no reference to the deleted id, and keeps the remaining ids of `all` in their former order |
| StoreInvariants.CreateKeepsConsistent | app/Services/CategoryService.php:14-27 | an accepted create keeps parent pointers valid and the store acyclic |
| StoreInvariants.UpdateKeepsConsistent | tests/Unit/CategoryServiceTest.php:129-146 | an accepted update keeps parent pointers valid and the store acyclic |
| StoreInvariants.UpdateAcceptedExactly | app/Services/CategoryService.php:31-51 | in an acyclic store the walk never diverges; an update succeeds exactly when the category exists and the parent is null or a stored id other than the category that is not below it; a parent below the category gives CyclicHierarchy |
| StoreInvariants.DeleteKeepsConsistent | app/Services/CategoryService.php:62-78 | a delete keeps parent pointers valid and the store acyclic |
| StoreInvariants.DeleteLeavesNoReference | tests/Unit/CategoryServiceTest.php:151-192 | after a delete in an acyclic store, no remaining record has the deleted id as parent |
| CategoryHierarchy.BuildHierarchy | app/Services/CategoryService.php:89-97 | the node carries the category's id, name and parent; its children are the nodes of that category's children in store order, recursively; the recursion ends on any store |
| CategoryHierarchy.BuildEach | app/Services/CategoryService.php:95 | one node per category, in order, each mirroring the store below it |
| CategoryHierarchy.GetWithHierarchy | app/Services/CategoryService.php:80-87 | one tree per root category, in the order of `getRootCategories`, each a root mirroring the store below it |
| CategoryHierarchy.ListedDescends | app/Services/CategoryService.php:89-97 | every id listed in a node lies below that node's category, at a depth consistent with its root |
| CategoryHierarchy.DescendantListed | app/Services/CategoryService.php:89-97 | every stored category below a node's category is listed in that node |
| CategoryHierarchy.ForestListsRootedCategories | app/Services/CategoryService.php:80-97 | on any store, the forest lists exactly the stored categories whose chain reaches a root, and none twice |
| CategoryHierarchy.ForestListsEveryCategoryOnce | tests/Unit/CategoryServiceTest.php:208-260 | in a consistent store every category appears in the forest exactly once |
| CreateCategoryRequest.BlankIsTrimmedEmpty | app/Http/Requests/CreateCategoryRequest.php:29 | a name is blank exactly when `trim` leaves nothing of it |
| CreateCategoryRequest.AcceptedExactly | app/Http/Requests/CreateCategoryRequest.php:23-35 | a submission passes exactly when the name is present, not blank, at most 255 characters and not used by another stored category, and the parent is null or stored |
| CreateCategoryRequest.NameViolations | app/Http/Requests/CreateCategoryRequest.php:28-33 | a missing or blank name breaks `required` and nothing else; any other name never breaks `required`, breaks `max:255` exactly when it is longer than 255 characters, and breaks `unique` exactly when another stored category carries it |
| CreateCategoryRequest.ParentViolations | app/Http/Requests/CreateCategoryRequest.php:34 | the parent rule yields at most the one `exists` violation |
| CreateCategoryRequest.BlankNameRejected | app/Http/Requests/CreateCategoryRequest.php:28-29 | a missing or blank name breaks `required`, so the form is rejected |
| CreateCategoryRequest.LongNameRejected | app/Http/Requests/CreateCategoryRequest.php:31 | a name longer than 255 characters is never accepted |
| CreateCategoryRequest.TakenNameRejected | app/Http/Requests/CreateCategoryRequest.php:32 | the name of any stored category other than the one being edited is rejected |
| CreateCategoryRequest.OwnNameAccepted | app/Http/Requests/CreateCategoryRequest.php:25-32 | re-submitting a stored category unchanged on its own edit form is accepted, because the edited id is excluded from the uniqueness check |
| CreateCategoryRequest.ParentRuleMatchesCreate | app/Http/Requests/CreateCategoryRequest.php:34 | the parent rule rejects exactly the parents `createCategory` would refuse |
| CreateCategoryRequest.SelfParentPassesRules | app/Http/Requests/CreateCategoryRequest.php:34 | the rules accept a category as its own parent; the service rejects it with SelfParent |
| CreateCategoryRequest.AcceptedCreateKeepsNamesDistinct | app/Http/Requests/CreateCategoryRequest.php:23-35 | an accepted create form always leads to a successful create and keeps stored names distinct |
| CreateCategoryRequest.AcceptedUpdateKeepsNamesDistinct | app/Http/Requests/CreateCategoryRequest.php:25-32 | an accepted edit form that the service carries out keeps stored names distinct |
| PhpStrings.TrimLeft | app/Console/Commands/CreateProductCommand.php:60 | the result is a suffix of the input and does not start with a trim character |
| PhpStrings.TrimLeftCuts | app/Console/Commands/CreateProductCommand.php:60 | everything the left trim cut away is a trim character |
| PhpStrings.TrimRight | app/Console/Commands/CreateProductCommand.php:60 | the result is a prefix of the input and does not end with a trim character |
| PhpStrings.TrimRightCuts | app/Console/Commands/CreateProductCommand.php:60 | everything the right trim cut away is a trim character |
| PhpStrings.Trim | app/Console/Commands/CreateProductCommand.php:60 | the result is no longer than the input and neither of its ends is a trim character |
| PhpStrings.TrimCutsOnlyEnds | app/Console/Commands/CreateProductCommand.php:60 | the result of `trim` is a slice of the input with only trim characters cut away on either side |
| PhpStrings.TrimIdempotent | app/Console/Commands/CreateProductCommand.php:60 | trimming a trimmed string changes nothing |
| PhpStrings.TrimPadded | app/Console/Commands/CreateProductCommand.php:60 | `trim` removes any padding of trim characters around a string whose ends are kept characters |
| PhpStrings.Split | app/Console/Commands/CreateProductCommand.php:60 | `explode` gives at least one piece, no piece holds the separator, and the pieces join back to the input |
| PhpStrings.SplitJoin | app/Console/Commands/CreateProductCommand.php:60 | `explode` recovers the pieces that `implode` joined, when none of them holds the separator |
| PhpStrings.SplitAppend | app/Console/Commands/CreateProductCommand.php:60 | splitting at a separator gives the pieces before it followed by the pieces after it |
| PhpStrings.ToIntShow | app/Console/Commands/CreateProductCommand.php:65 | the `(int)` cast reads back every rendered integer |
| PhpStrings.ShowFalsy | app/Console/Commands/CreateProductCommand.php:59 | zero is the only integer whose rendering is falsy |
| CreateProductCommand.KeepTruthy | app/Console/Commands/CreateProductCommand.php:59-61 | `array_filter` keeps exactly the truthy tokens, none added; a single token is kept or dropped as it is truthy or falsy, and nothing is dropped when all are truthy |
| CreateProductCommand.KeepTruthyAppend | app/Console/Commands/CreateProductCommand.php:59-61 | filtering a concatenation filters each part and keeps their order; with the single-token case this fixes `array_filter` on every list, order and repeats included |
| CreateProductCommand.CategoryTokens | app/Console/Commands/CreateProductCommand.php:57-61 | every kept token is truthy: `array_filter` has dropped the empty and `"0"` pieces |
| CreateProductCommand.TokensTrimmed | app/Console/Commands/CreateProductCommand.php:59-61 | every kept token is already trimmed |
| CreateProductCommand.FirstMissing | app/Console/Commands/CreateProductCommand.php:64-68 | finds the first id that is not stored: all ids before it are stored; none is found exactly when all are stored |
| CreateProductCommand.CheckCategories | app/Console/Commands/CreateProductCommand.php:64-68 | the `foreach` stops at the same position as `FirstMissing` |
| CreateProductCommand.Handle | app/Console/Commands/CreateProductCommand.php:51-72 | fails on the price exactly when it is not positive, before the option is read; an unknown category is the first kept token whose id is not stored, every earlier token naming a stored category; on success the ids are the kept tokens cast to int, one per token and in order, and all are stored |
| CreateProductCommand.FalsyOptionNoCategories | app/Console/Commands/CreateProductCommand.php:57-58 | an absent, empty or `"0"` option gives an empty id list |
| CreateProductCommand.ZeroTokenDropped | app/Console/Commands/CreateProductCommand.php:59-61 | appending `,0` to the option never changes the outcome, because the token `0` is falsy and dropped |
| CreateProductCommand.RenderedIdsRoundTrip | tests/Unit/CreateProductCommandTest.php:206-225 | for stored non-zero ids, the comma list of those ids with any trim-character padding yields exactly those ids, in order |

## Left out

- Controllers, Blade views, `ProductService`, `ProductRepository` and the
  product–category pivot table are not part of this model. They are HTTP
  glue, presentation, and a product store whose library is not shown.
- Image handling in `product:create` (`file_exists`, MIME detection), its
  console messages and the product creation call are I/O and are left out.
  `Handle` stops where the product would be created.
- CreateProductCommand.Handle takes the price after the `(float)` cast, as
  a `real`. Parsing the argument and rounding are not modelled.
- PhpStrings.ToInt models the `(int)` cast as: leading whitespace, an
  optional sign, then the longest digit prefix. It does not model exponent
  notation (`"1e3"` gives 1000 in PHP). It does not model saturation at the
  64-bit integer limits. Ids are unbounded integers.
- CreateCategoryRequest.NameViolations does not model three things:
  - Laravel's input middleware that trims strings and turns empty strings
    into null. It is covered only through `required` rejecting blank names.
  - The `string` and `integer` rules. Inputs are already typed as
    `Option<string>` and `Option<int>`.
  - The database collation. Names are compared exactly, which matches
    SQLite's default; MySQL's default collation ignores case.
- CategoryService.UpdateCategory returns the extra error
  `AncestorWalkDiverges` where the PHP loop never terminates. It arises
  exactly when the category is not a strict ancestor of the proposed parent
  and the chain of parents above that parent never stops, so the store is
  already cyclic, and `UpdateAcceptedExactly` proves it cannot
  arise from an acyclic one.
- CategoryService.DeleteCategory states "no remaining reference to the
  deleted id" only when the category is not its own parent. A self-parented
  record can exist only in an already cyclic store.
- Name uniqueness is decided only by the form rules. `createCategory` and
  `updateCategory` do not check names, and the model follows the code.
  `DuplicateName` is therefore not a service error. The
  `AcceptedCreateKeepsNamesDistinct` and `AcceptedUpdateKeepsNamesDistinct`
  lemmas connect the two.
- `getWithHierarchy` on a store with a cycle does not report an error.
  Following the code, categories not under any root are simply absent from
  the forest (`ForestListsRootedCategories`).
- Transactions, atomicity and concurrent writers are not modelled: the code
  has none. Each operation is one state transition.
- The order of `all`, `getRootCategories` and `children` is assumed to be
  insertion order. The queries have no `ORDER BY`.
- Return values that only echo state are not modelled separately: the
  reloaded record from `fresh()` and the boolean from `delete()`. Each
  operation returns the new store, plus the written record where there is
  one.

=== FILE: ancestry.dfy ===
/**
 * Ancestor chains over the `parent_id` pointers of a store, and the
 * acyclicity invariant stated in terms of them.
 */
module Ancestry {
  import opened Base
  import opened CategoryRepository

  /** The parent pointer of the stored record `x`; `None` for a root or a missing record. */
  function ParentOf(s: Db, x: int): Option<int> {
    match FindById(s, x)
    case None => None
    case Some(c) => c.parentId
  }

  /**
   * The id reached from `x` after `k` upward hops, or `None` when the chain
   * stops earlier: at a root, or at a pointer to an id that is not stored.
   */
  function Ancestor(s: Db, x: int, k: nat): Option<int>
    decreases k
  {
    if k == 0 then Some(x)
    else match ParentOf(s, x)
      case None => None
      case Some(q) => Ancestor(s, q, k - 1)
  }

  /** `r` is a stored category with a null parent. */
  predicate IsRoot(s: Db, r: int) {
    match FindById(s, r)
    case None => false
    case Some(c) => c.parentId.None?
  }

  /** Walking up from `x` reaches `a` after at least one hop. */
  ghost predicate IsStrictAncestor(s: Db, a: int, x: int) {
    exists k: nat :: k > 0 && Ancestor(s, x, k) == Some(a)
  }

  /** Following `parent_id` from any stored category stops after finitely many hops. */
  ghost predicate Acyclic(s: Db) {
    forall x :: x in Ids(s) ==> exists k: nat :: Ancestor(s, x, k) == None
  }

  /** Referential validity: every non-null `parent_id` names a stored category. */
  predicate ParentsExist(s: Db) {
    forall c :: c in s.rows && c.parentId.Some? ==> c.parentId.value in Ids(s)
  }

  /** Walking `d` hops up from `x` lands on a root. */
  ghost predicate Rooted(s: Db, x: int, d: nat) {
    Ancestor(s, x, d).Some? && IsRoot(s, Ancestor(s, x, d).value)
  }

  /** Hops compose: `a + b` hops are `a` hops followed by `b` hops. */
  lemma {:induction false} AncestorAdd(s: Db, x: int, a: nat, b: nat)
    ensures Ancestor(s, x, a + b) == match Ancestor(s, x, a)
                                     case None => None
                                     case Some(y) => Ancestor(s, y, b)
    decreases a
  {
    if a > 0 {
      match ParentOf(s, x)
      case None =>
      case Some(q) =>
        AncestorAdd(s, q, a - 1, b);
        assert Ancestor(s, x, a + b) == Ancestor(s, q, (a - 1) + b);
    }
  }

  /** Once a chain has stopped it stays stopped. */
  lemma AncestorStops(s: Db, x: int, a: nat, b: nat)
    requires Ancestor(s, x, a).None? && a <= b
    ensures Ancestor(s, x, b).None?
  {
    AncestorAdd(s, x, a, b - a);
  }

  /** A chain that returns to its start never stops. */
  lemma {:induction false} NeverStops(s: Db, x: int, k: nat, m: nat)
    requires k > 0 && Ancestor(s, x, k) == Some(x)
    ensures Ancestor(s, x, m).Some?
    decreases m
  {
    if m < k {
      if Ancestor(s, x, m).None? {
        AncestorStops(s, x, m, k);
        assert false;
      }
    } else {
      AncestorAdd(s, x, k, m - k);
      NeverStops(s, x, k, m - k);
    }
  }

  /** A category that is its own strict ancestor breaks acyclicity. */
  lemma CycleBreaksAcyclic(s: Db, x: int, k: nat)
    requires k > 0 && Ancestor(s, x, k) == Some(x)
    ensures !Acyclic(s)
  {
    assert ParentOf(s, x).Some?;
    assert x in Ids(s);
    forall m: nat ensures Ancestor(s, x, m) != None {
      NeverStops(s, x, k, m);
    }
  }

  /** In an acyclic store no category is its own parent. */
  lemma NoSelfParent(s: Db, x: int)
    requires Acyclic(s)
    ensures ParentOf(s, x) != Some(x)
  {
    if ParentOf(s, x) == Some(x) {
      assert Ancestor(s, x, 1) == Some(x);
      CycleBreaksAcyclic(s, x, 1);
      assert false;
    }
  }

  /** The depth at which a chain meets its root is unique. */
  lemma DepthUnique(s: Db, x: int, a: nat, b: nat)
    requires Rooted(s, x, a) && Rooted(s, x, b)
    ensures a == b
  {
    if a < b {
      AncestorAdd(s, x, a, b - a);
      assert false;
    } else if b < a {
      AncestorAdd(s, x, b, a - b);
      assert false;
    }
  }

  /** With referential validity, a chain that stops stops at a root. */
  lemma {:induction false} StopsAtRoot(s: Db, x: int, k: nat)
    requires ParentsExist(s) && x in Ids(s) && Ancestor(s, x, k) == None
    ensures exists d: nat :: Rooted(s, x, d)
    decreases k
  {
    var c := FindById(s, x).value;
    match c.parentId
    case None =>
      assert Rooted(s, x, 0);
    case Some(q) =>
      assert q in Ids(s);
      assert k > 0;
      assert Ancestor(s, q, k - 1) == None;
      StopsAtRoot(s, q, k - 1);
      var d: nat :| Rooted(s, q, d);
      assert Ancestor(s, x, d + 1) == Ancestor(s, q, d);
      assert Rooted(s, x, d + 1);
  }

  /** In a referentially valid acyclic store every category lies under some root. */
  lemma EveryCategoryRooted(s: Db, x: int)
    requires ParentsExist(s) && Acyclic(s) && x in Ids(s)
    ensures exists d: nat :: Rooted(s, x, d)
  {
    var k: nat :| Ancestor(s, x, k) == None;
    StopsAtRoot(s, x, k);
  }
}

=== FILE: base.dfy ===
/** Small failure-compatible datatypes shared by every module of the model. */
module Base {

  /** An optional value; `None` plays the part of PHP's `null`. */
  datatype Option<+T> = None | Some(value: T)

  /** The outcome of an operation that either succeeds with a value or fails with a typed error. */
  datatype Result<+T, +E> = Ok(value: T) | Err(error: E)

  /** `f` applied to every element, in order (PHP's `array_map`). */
  function Map<T, U>(f: T -> U, xs: seq<T>): (r: seq<U>)
    ensures |r| == |xs| && forall i :: 0 <= i < |xs| ==> r[i] == f(xs[i])
  {
    seq(|xs|, i requires 0 <= i < |xs| => f(xs[i]))
  }

  /** Mapping distributes over concatenation. */
  lemma MapAppend<T, U>(f: T -> U, xs: seq<T>, ys: seq<T>)
    ensures Map(f, xs + ys) == Map(f, xs) + Map(f, ys)
  {
    var a, b, c := Map(f, xs + ys), Map(f, xs), Map(f, ys);
    forall i | 0 <= i < |a| ensures a[i] == (b + c)[i] {
      if i < |xs| {
        assert (xs + ys)[i] == xs[i];
      } else {
        assert (xs + ys)[i] == ys[i - |xs|];
      }
    }
  }
}

=== FILE: category_hierarchy.dfy ===
/**
 * `getWithHierarchy` / `buildHierarchy`: the read-only materialisation of
 * the store as a forest of nested nodes, roots first, each node followed
 * by the recursively built nodes of its children in store order.
 */
module CategoryHierarchy {
  import opened Base
  import opened CategoryRepository
  import opened Ancestry

  /** One node of the nested array: the record's fields and its children's nodes. */
  datatype Tree = Tree(id: int, name: string, parentId: Option<int>, children: seq<Tree>)

  /** Every id in `above` lies between `x` and its root, 1 to `depth` hops up. */
  ghost predicate Above(s: Db, x: int, above: set<int>, depth: nat) {
    forall v :: v in above ==> exists j: nat :: 1 <= j <= depth && Ancestor(s, x, j) == Some(v)
  }

  /** The categories `cs` can each be expanded at `depth` below a root with `above` already expanded. */
  ghost predicate Expandable(s: Db, cs: seq<Category>, above: set<int>, depth: nat) {
    forall i :: 0 <= i < |cs| ==> cs[i] in s.rows && Rooted(s, cs[i].id, depth) && Above(s, cs[i].id, above, depth)
  }

  /** A category under a root is never among the categories above it, so the recursion cannot revisit it. */
  lemma NotAboveItself(s: Db, x: int, above: set<int>, depth: nat)
    requires Rooted(s, x, depth) && Above(s, x, above, depth)
    ensures x !in above
  {
    if x in above {
      var j: nat :| 1 <= j <= depth && Ancestor(s, x, j) == Some(x);
      AncestorAdd(s, x, j, depth + 1 - j);
      AncestorAdd(s, x, depth, 1);
      if Ancestor(s, x, depth + 1 - j).None? {
        AncestorStops(s, x, depth + 1 - j, depth);
      }
      assert false;
    }
  }

  /** The children of an expandable category are expandable one level deeper. */
  lemma ChildrenExpandable(s: Db, c: Category, above: set<int>, depth: nat)
    requires c in s.rows && Rooted(s, c.id, depth) && Above(s, c.id, above, depth)
    ensures Expandable(s, Children(s, c.id), above + {c.id}, depth + 1)
  {
    var cs := Children(s, c.id);
    forall i | 0 <= i < |cs|
      ensures Rooted(s, cs[i].id, depth + 1) && Above(s, cs[i].id, above + {c.id}, depth + 1)
    {
      var ch := cs[i];
      assert ch in cs;
      assert FindById(s, ch.id) == Some(ch);
      assert Ancestor(s, ch.id, depth + 1) == Ancestor(s, c.id, depth);
      forall v | v in above + {c.id}
        ensures exists j: nat :: 1 <= j <= depth + 1 && Ancestor(s, ch.id, j) == Some(v)
      {
        if v == c.id {
          assert Ancestor(s, ch.id, 1) == Some(c.id);
        } else {
          var j: nat :| 1 <= j <= depth && Ancestor(s, c.id, j) == Some(v);
          assert Ancestor(s, ch.id, j + 1) == Ancestor(s, c.id, j);
        }
      }
    }
  }

  /** The roots of any store are expandable at depth 0. */
  lemma RootsExpandable(s: Db)
    ensures Expandable(s, RootCategories(s), {}, 0)
  {
    var rs := RootCategories(s);
    forall i | 0 <= i < |rs| ensures rs[i] in s.rows && Rooted(s, rs[i].id, 0) {
      assert rs[i] in rs;
      assert FindById(s, rs[i].id) == Some(rs[i]);
    }
  }

  /** `t` mirrors the store: its fields are a stored record, its children that record's children, recursively. */
  ghost predicate Faithful(s: Db, t: Tree)
    decreases t
  {
    && FindById(s, t.id) == Some(Category(t.id, t.name, t.parentId))
    && |t.children| == |Children(s, t.id)|
    && (forall i :: 0 <= i < |t.children| ==> t.children[i].id == Children(s, t.id)[i].id)
    && (forall i :: 0 <= i < |t.children| ==> Faithful(s, t.children[i]))
  }

  /**
   * `buildHierarchy(category)`. The ghost `above` and `depth` record where the
   * category sits below its root; they exist only to show the recursion ends.
   */
  function BuildHierarchy(s: Db, c: Category, ghost above: set<int>, ghost depth: nat): (t: Tree)
    requires c in s.rows && Rooted(s, c.id, depth) && Above(s, c.id, above, depth)
    ensures t.id == c.id && Faithful(s, t)
    decreases Ids(s) - above, 0, 0
  {
    NotAboveItself(s, c.id, above, depth);
    ChildrenExpandable(s, c, above, depth);
    assert FindById(s, c.id) == Some(c);
    Tree(c.id, c.name, c.parentId, BuildEach(s, Children(s, c.id), above + {c.id}, depth + 1))
  }

  /** `buildHierarchy` mapped over a list of categories, keeping their order. */
  function BuildEach(s: Db, cs: seq<Category>, ghost above: set<int>, ghost depth: nat): (ts: seq<Tree>)
    requires Expandable(s, cs, above, depth)
    ensures |ts| == |cs|
    ensures forall i :: 0 <= i < |cs| ==> ts[i].id == cs[i].id && Faithful(s, ts[i])
    decreases Ids(s) - above, 1, |cs|
  {
    if cs == [] then []
    else
      ExpandableSplit(s, cs, above, depth);
      [BuildHierarchy(s, cs[0], above, depth)] + BuildEach(s, cs[1..], above, depth)
  }

  /** The first of expandable categories can be expanded, and so can the rest. */
  lemma ExpandableSplit(s: Db, cs: seq<Category>, above: set<int>, depth: nat)
    requires cs != [] && Expandable(s, cs, above, depth)
    ensures cs[0] in s.rows && Rooted(s, cs[0].id, depth) && Above(s, cs[0].id, above, depth)
    ensures Expandable(s, cs[1..], above, depth)
  {
    forall i | 0 <= i < |cs| - 1
      ensures cs[1..][i] in s.rows && Rooted(s, cs[1..][i].id, depth) && Above(s, cs[1..][i].id, above, depth)
    {
      assert cs[1..][i] == cs[i + 1];
    }
  }

  /**
   * `getWithHierarchy`: one tree per root category, in store order, each
   * mirroring the store below it.
   */
  function GetWithHierarchy(s: Db): (forest: seq<Tree>)
    ensures |forest| == |RootCategories(s)|
    ensures forall i :: 0 <= i < |forest| ==> forest[i].id == RootCategories(s)[i].id
    ensures forall i :: 0 <= i < |forest| ==> IsRoot(s, forest[i].id) && Faithful(s, forest[i])
  {
    RootsExpandable(s);
    var forest := BuildEach(s, RootCategories(s), {}, 0);
    assert forall i :: 0 <= i < |forest| ==> RootCategories(s)[i] in RootCategories(s);
    forest
  }

  /** The ids of a tree in pre-order. */
  function Flatten(t: Tree): seq<int>
    decreases t, 1
  {
    [t.id] + FlattenAll(t.children)
  }

  function FlattenAll(ts: seq<Tree>): seq<int>
    decreases ts, 0
  {
    if ts == [] then [] else Flatten(ts[0]) + FlattenAll(ts[1..])
  }

  predicate NoDup(xs: seq<int>) {
    forall i, j :: 0 <= i < j < |xs| ==> xs[i] != xs[j]
  }

  lemma {:induction false} FlattenAllMember(ts: seq<Tree>, y: int)
    ensures y in FlattenAll(ts) <==> exists i :: 0 <= i < |ts| && y in Flatten(ts[i])
    decreases ts
  {
    if ts != [] {
      FlattenAllMember(ts[1..], y);
      if y in FlattenAll(ts[1..]) {
        var i :| 0 <= i < |ts[1..]| && y in Flatten(ts[1..][i]);
        assert y in Flatten(ts[i + 1]);
      }
      forall i | 1 <= i < |ts| && y in Flatten(ts[i]) ensures y in FlattenAll(ts[1..]) {
        assert ts[1..][i - 1] == ts[i];
      }
    }
  }

  /** A stored category reached by walking `e` hops to a root. */
  lemma RootedIsStored(s: Db, y: int, e: nat)
    requires Rooted(s, y, e)
    ensures y in Ids(s)
  {
    if e > 0 {
      assert ParentOf(s, y).Some?;
    }
  }

  /** A child of a faithful tree is faithful and records a stored child of the parent. */
  lemma FaithfulChild(s: Db, t: Tree, i: int)
    requires Faithful(s, t) && 0 <= i < |t.children|
    ensures Faithful(s, t.children[i])
    ensures ParentOf(s, t.children[i].id) == Some(t.id)
  {
    var rec := Children(s, t.id)[i];
    assert rec in Children(s, t.id);
    assert FindById(s, rec.id) == Some(rec);
  }

  /** Every stored child of the category of a faithful tree has a node among its children. */
  lemma ChildHasNode(s: Db, t: Tree, w: int) returns (i: int)
    requires Faithful(s, t) && ParentOf(s, w) == Some(t.id)
    ensures 0 <= i < |t.children| && t.children[i].id == w
  {
    var rec := FindById(s, w).value;
    assert rec in Children(s, t.id);
    i :| 0 <= i < |Children(s, t.id)| && Children(s, t.id)[i] == rec;
  }

  /** `k` hops up reach `x`, whose parent is `p`: `k + 1` hops reach `p`. */
  lemma StepUp(s: Db, y: int, k: nat, x: int, p: int)
    requires Ancestor(s, y, k) == Some(x) && ParentOf(s, x) == Some(p)
    ensures Ancestor(s, y, k + 1) == Some(p)
  {
    AncestorAdd(s, y, k, 1);
    assert Ancestor(s, x, 1) == ParentOf(s, x);
  }

  /** One hop below a category at root depth `d` is root depth `d + 1`. */
  lemma RootedBelow(s: Db, x: int, p: int, d: nat)
    requires ParentOf(s, x) == Some(p) && Rooted(s, p, d)
    ensures Rooted(s, x, d + 1)
  {
    assert Ancestor(s, x, d + 1) == Ancestor(s, p, d);
  }

  /** An id listed under `t` other than its own is listed under one of its children. */
  lemma ListedUnderChild(t: Tree, y: int) returns (i: int)
    requires y in Flatten(t) && y != t.id
    ensures 0 <= i < |t.children| && y in Flatten(t.children[i])
  {
    FlattenAllMember(t.children, y);
    i :| 0 <= i < |t.children| && y in Flatten(t.children[i]);
  }

  /**
   * A step given to the solver, not a property of the model: it restates
   * `Rooted` at an equal depth written differently, which keeps the
   * arithmetic out of the induction below.
   */
  lemma RootedAt(s: Db, y: int, a: nat, b: nat)
    requires Rooted(s, y, a) && a == b
    ensures Rooted(s, y, b)
  {
  }

  /** Everything listed under `t` descends from `t`, at matching root depth. */
  lemma {:induction false} ListedDescends(s: Db, t: Tree, d: nat, y: int) returns (j: nat)
    requires Faithful(s, t) && Rooted(s, t.id, d) && y in Flatten(t)
    ensures Ancestor(s, y, j) == Some(t.id) && Rooted(s, y, j + d)
    decreases t
  {
    if y == t.id {
      j := 0;
      RootedAt(s, y, d, j + d);
    } else {
      var i := ListedUnderChild(t, y);
      var ch := t.children[i];
      FaithfulChild(s, t, i);
      RootedBelow(s, ch.id, t.id, d);
      var k := ListedDescends(s, ch, d + 1, y);
      StepUp(s, y, k, ch.id, t.id);
      j := k + 1;
      RootedAt(s, y, k + (d + 1), j + d);
    }
  }

  /** Every stored descendant of `t` is listed under `t`. */
  lemma {:induction false} DescendantListed(s: Db, t: Tree, y: int, j: nat)
    requires Faithful(s, t) && Ancestor(s, y, j) == Some(t.id)
    ensures y in Flatten(t)
    decreases j
  {
    if j > 0 {
      if Ancestor(s, y, j - 1).None? {
        AncestorStops(s, y, j - 1, j);
        assert false;
      }
      var w := Ancestor(s, y, j - 1).value;
      AncestorAdd(s, y, j - 1, 1);
      var i := ChildHasNode(s, t, w);
      FaithfulChild(s, t, i);
      DescendantListed(s, t.children[i], y, j - 1);
      FlattenAllMember(t.children, y);
    }
  }

  lemma NoDupConcat(a: seq<int>, b: seq<int>)
    requires NoDup(a) && NoDup(b) && forall y :: y in a ==> y !in b
    ensures NoDup(a + b)
  {
    forall i, j | 0 <= i < j < |a + b| ensures (a + b)[i] != (a + b)[j] {
      if i < |a| && j >= |a| {
        assert (a + b)[i] in a && (a + b)[j] in b;
      }
    }
  }

  /** Two depths that reach roots from `y` agree, so the same number of hops lands on the same id. */
  lemma SameDepthSameTop(s: Db, y: int, a: nat, b: nat, d: nat, x1: int, x2: int)
    requires Ancestor(s, y, a) == Some(x1) && Ancestor(s, y, b) == Some(x2)
    requires Rooted(s, y, a + d) && Rooted(s, y, b + d)
    ensures x1 == x2
  {
    DepthUnique(s, y, a + d, b + d);
  }

  /** Trees for categories at the same root depth that share an id are for the same category. */
  lemma SiblingsDisjoint(s: Db, t1: Tree, t2: Tree, d: nat, y: int)
    requires Faithful(s, t1) && Rooted(s, t1.id, d) && Faithful(s, t2) && Rooted(s, t2.id, d)
    requires y in Flatten(t1) && y in Flatten(t2)
    ensures t1.id == t2.id
  {
    var j1 := ListedDescends(s, t1, d, y);
    var j2 := ListedDescends(s, t2, d, y);
    SameDepthSameTop(s, y, j1, j2, d, t1.id, t2.id);
  }

  /** A list of trees for distinct categories at one root depth lists no id twice. */
  lemma {:induction false} SiblingsNoDup(s: Db, ts: seq<Tree>, d: nat)
    requires forall i :: 0 <= i < |ts| ==> Faithful(s, ts[i]) && Rooted(s, ts[i].id, d)
    requires forall i, k :: 0 <= i < k < |ts| ==> ts[i].id != ts[k].id
    ensures NoDup(FlattenAll(ts))
    decreases ts, 0
  {
    if ts != [] {
      SubtreeNoDup(s, ts[0], d);
      SiblingsNoDup(s, ts[1..], d);
      forall y | y in Flatten(ts[0]) ensures y !in FlattenAll(ts[1..]) {
        FlattenAllMember(ts[1..], y);
        forall k | 0 <= k < |ts[1..]| ensures y !in Flatten(ts[1..][k]) {
          if y in Flatten(ts[1..][k]) {
            SiblingsDisjoint(s, ts[0], ts[1..][k], d, y);
            assert false;
          }
        }
      }
      NoDupConcat(Flatten(ts[0]), FlattenAll(ts[1..]));
    }
  }

  /** An id listed in a list of trees is listed in one of them. */
  lemma ListedInSome(ts: seq<Tree>, y: int) returns (i: int)
    requires y in FlattenAll(ts)
    ensures 0 <= i < |ts| && y in Flatten(ts[i])
  {
    FlattenAllMember(ts, y);
    i :| 0 <= i < |ts| && y in Flatten(ts[i]);
  }

  /** A category under a root is not listed below any of its children. */
  lemma NotBelowItself(s: Db, c: Tree, p: int, d: nat, y: int)
    requires Faithful(s, c) && ParentOf(s, c.id) == Some(p) && Rooted(s, p, d)
    requires y in Flatten(c)
    ensures y != p
  {
    var e := d + 1;
    RootedBelow(s, c.id, p, d);
    assert Rooted(s, c.id, e);
    var j := ListedDescends(s, c, e, y);
    if y == p {
      DepthUnique(s, p, d, j + e);
      assert false;
    }
  }

  /** A faithful tree under a root lists no id twice. */
  lemma {:induction false} SubtreeNoDup(s: Db, t: Tree, d: nat)
    requires Faithful(s, t) && Rooted(s, t.id, d)
    ensures NoDup(Flatten(t))
    decreases t, 1
  {
    forall i | 0 <= i < |t.children| ensures Faithful(s, t.children[i]) && Rooted(s, t.children[i].id, d + 1) {
      FaithfulChild(s, t, i);
      RootedBelow(s, t.children[i].id, t.id, d);
    }
    forall i, k | 0 <= i < k < |t.children| ensures t.children[i].id != t.children[k].id {
      assert Children(s, t.id)[i].id != Children(s, t.id)[k].id;
    }
    SiblingsNoDup(s, t.children, d + 1);
    forall y | y in FlattenAll(t.children) ensures y != t.id {
      var i := ListedInSome(t.children, y);
      FaithfulChild(s, t, i);
      NotBelowItself(s, t.children[i], t.id, d, y);
    }
    NoDupConcat([t.id], FlattenAll(t.children));
  }

  /** Every id listed in the forest is a stored category under some root. */
  lemma ForestListsOnlyRooted(s: Db, x: int) returns (d: nat)
    requires x in FlattenAll(GetWithHierarchy(s))
    ensures x in Ids(s) && Rooted(s, x, d)
  {
    var forest := GetWithHierarchy(s);
    var i := ListedInSome(forest, x);
    assert Rooted(s, forest[i].id, 0);
    var j := ListedDescends(s, forest[i], 0, x);
    d := j;
    RootedIsStored(s, x, d);
  }

  /** Every stored category under some root is listed in the forest. */
  lemma ForestListsAllRooted(s: Db, x: int, d: nat)
    requires Rooted(s, x, d)
    ensures x in FlattenAll(GetWithHierarchy(s))
  {
    var forest := GetWithHierarchy(s);
    var rs := RootCategories(s);
    var r := Ancestor(s, x, d).value;
    var rec := FindById(s, r).value;
    assert rec in rs;
    var i :| 0 <= i < |rs| && rs[i] == rec;
    DescendantListed(s, forest[i], x, d);
    FlattenAllMember(forest, x);
  }

  /** The forest lists no id twice. */
  lemma ForestNoDup(s: Db)
    ensures NoDup(FlattenAll(GetWithHierarchy(s)))
  {
    var forest := GetWithHierarchy(s);
    var rs := RootCategories(s);
    forall i | 0 <= i < |forest| ensures Rooted(s, forest[i].id, 0) {
    }
    forall i, k | 0 <= i < k < |forest| ensures forest[i].id != forest[k].id {
      assert rs[i] in rs && rs[k] in rs;
    }
    SiblingsNoDup(s, forest, 0);
  }

  /**
   * The forest lists exactly the stored categories whose chain reaches a
   * root, and none of them twice.
   */
  lemma ForestListsRootedCategories(s: Db)
    ensures forall x :: x in FlattenAll(GetWithHierarchy(s)) <==> x in Ids(s) && exists d: nat :: Rooted(s, x, d)
    ensures NoDup(FlattenAll(GetWithHierarchy(s)))
  {
    forall x ensures x in FlattenAll(GetWithHierarchy(s)) <==> x in Ids(s) && exists d: nat :: Rooted(s, x, d) {
      if x in FlattenAll(GetWithHierarchy(s)) {
        var d := ForestListsOnlyRooted(s, x);
      }
      if x in Ids(s) && exists d: nat :: Rooted(s, x, d) {
        var d: nat :| Rooted(s, x, d);
        ForestListsAllRooted(s, x, d);
      }
    }
    ForestNoDup(s);
  }

  /** In a consistent store every category appears in the forest exactly once. */
  lemma ForestListsEveryCategoryOnce(s: Db)
    requires ParentsExist(s) && Acyclic(s)
    ensures forall x :: x in FlattenAll(GetWithHierarchy(s)) <==> x in Ids(s)
    ensures NoDup(FlattenAll(GetWithHierarchy(s)))
  {
    var forest := FlattenAll(GetWithHierarchy(s));
    forall x ensures x in forest <==> x in Ids(s) {
      if x in forest {
        var _ := ForestListsOnlyRooted(s, x);
      }
      if x in Ids(s) {
        EveryCategoryRooted(s, x);
        var d: nat :| Rooted(s, x, d);
        ForestListsAllRooted(s, x, d);
      }
    }
    ForestNoDup(s);
  }
}

=== FILE: category_repository.dfy ===
/**
 * The category store: the `categories` table as the repository sees it.
 * Rows are kept in insertion order (the order `all()` and the relation
 * queries return them in) next to the table's auto-increment counter.
 */
module CategoryRepository {
  import opened Base

  /** One row of the `categories` table. */
  datatype Category = Category(id: int, name: string, parentId: Option<int>)

  datatype Store = Store(rows: seq<Category>, nextId: int) {
    /** The primary-key discipline of the table: ids are unique, positive and below the counter. */
    predicate WellKeyed() {
      && 0 < nextId
      && UniqueIds(rows)
      && (forall i :: 0 <= i < |rows| ==> 0 < rows[i].id < nextId)
    }
  }

  /** A store the database could actually hold. */
  type Db = s: Store | s.WellKeyed() witness Store([], 1)

  predicate UniqueIds(rows: seq<Category>) {
    forall i, j :: 0 <= i < j < |rows| ==> rows[i].id != rows[j].id
  }

  function IdsOf(rows: seq<Category>): set<int> {
    set c | c in rows :: c.id
  }

  /** The ids of all stored categories. */
  function Ids(s: Store): set<int> {
    IdsOf(s.rows)
  }

  /** Linear lookup of the first row carrying `id`. */
  function Find(rows: seq<Category>, id: int): (r: Option<Category>)
    ensures r.Some? ==> r.value in rows && r.value.id == id
    ensures r.None? ==> forall c :: c in rows ==> c.id != id
  {
    if rows == [] then None
    else if rows[0].id == id then Some(rows[0])
    else Find(rows[1..], id)
  }

  /** `findById`: the record with that id, or `None` when there is none. */
  function FindById(s: Db, id: int): (r: Option<Category>)
    ensures r.Some? <==> id in Ids(s)
    ensures r.Some? ==> r.value in s.rows && r.value.id == id
    ensures forall c :: c in s.rows && c.id == id ==> r == Some(c)
  {
    Find(s.rows, id)
  }

  /** `all`: every stored record, in insertion order. */
  function All(s: Db): seq<Category> {
    s.rows
  }

  /** The rows satisfying `keep`, in store order (an Eloquent `where` query). */
  function Where(rows: seq<Category>, keep: Category -> bool): (r: seq<Category>)
    ensures forall c :: c in r <==> c in rows && keep(c)
    ensures UniqueIds(rows) ==> UniqueIds(r)
    ensures |r| <= |rows|
  {
    if rows == [] then []
    else
      var rest := Where(rows[1..], keep);
      if keep(rows[0]) then
        assert UniqueIds(rows) ==> UniqueIds([rows[0]] + rest) by {
          if UniqueIds(rows) {
            UniqueTail(rows);
            UniqueCons(rows[0], rest);
          }
        }
        [rows[0]] + rest
      else rest
  }

  /** The ids of `rows`, in their order. */
  function Order(rows: seq<Category>): (r: seq<int>)
    ensures |r| == |rows| && forall i :: 0 <= i < |rows| ==> r[i] == rows[i].id
  {
    seq(|rows|, i requires 0 <= i < |rows| => rows[i].id)
  }

  /** `xs` without the occurrences of `x`; the others keep their order. */
  function Without(xs: seq<int>, x: int): (r: seq<int>)
    ensures forall y :: y in r <==> y in xs && y != x
  {
    if xs == [] then []
    else
      var rest := Without(xs[1..], x);
      assert forall y :: y in xs <==> y == xs[0] || y in xs[1..];
      if xs[0] == x then rest else [xs[0]] + rest
  }

  /** A `where` that drops the rows of one id drops that id from the order and keeps the rest in place. */
  lemma {:induction false} OrderWhere(rows: seq<Category>, id: int, keep: Category -> bool)
    requires forall c :: keep(c) <==> c.id != id
    ensures Order(Where(rows, keep)) == Without(Order(rows), id)
  {
    if rows != [] {
      var rest := Where(rows[1..], keep);
      OrderWhere(rows[1..], id, keep);
      assert Order(rows)[1..] == Order(rows[1..]);
      assert Order(rows)[0] == rows[0].id;
      if keep(rows[0]) {
        assert Order([rows[0]] + rest) == [rows[0].id] + Order(rest);
      }
    }
  }

  /** The rows after the first of a uniquely keyed sequence are uniquely keyed and avoid its id. */
  lemma UniqueTail(rows: seq<Category>)
    requires rows != [] && UniqueIds(rows)
    ensures UniqueIds(rows[1..]) && forall c :: c in rows[1..] ==> c.id != rows[0].id
  {
    forall c | c in rows[1..] ensures c.id != rows[0].id {
      var k :| 0 <= k < |rows[1..]| && rows[1..][k] == c;
      assert rows[k + 1] == c;
    }
  }

  /** Prepending a record with a fresh id keeps ids unique. */
  lemma UniqueCons(c: Category, rest: seq<Category>)
    requires UniqueIds(rest) && forall d :: d in rest ==> d.id != c.id
    ensures UniqueIds([c] + rest)
  {
    var rows := [c] + rest;
    forall i, j | 0 <= i < j < |rows| ensures rows[i].id != rows[j].id {
      assert rows[j] == rest[j - 1];
      if i > 0 {
        assert rows[i] == rest[i - 1];
      } else {
        assert rest[j - 1] in rest;
      }
    }
  }

  /** `getRootCategories`: the records whose `parent_id` is null. */
  function RootCategories(s: Db): (r: seq<Category>)
    ensures forall c :: c in r <==> c in s.rows && c.parentId.None?
    ensures UniqueIds(r)
  {
    Where(s.rows, (c: Category) => c.parentId.None?)
  }

  /** The `children` relation of a category: the records whose `parent_id` is `id`. */
  function Children(s: Db, id: int): (r: seq<Category>)
    ensures forall c :: c in r <==> c in s.rows && c.parentId == Some(id)
    ensures UniqueIds(r)
  {
    Where(s.rows, (c: Category) => c.parentId == Some(id))
  }

  /**
   * `create`: inserts one record under a fresh id drawn from the counter;
   * every record already stored keeps its id, name and parent.
   */
  function Create(s: Db, name: string, parentId: Option<int>): (r: (Db, Category))
    ensures r.1.name == name && r.1.parentId == parentId
    ensures r.1.id !in Ids(s) && r.1.id > 0
    ensures Ids(r.0) == Ids(s) + {r.1.id}
    ensures |All(r.0)| == |All(s)| + 1 && All(r.0)[..|All(s)|] == All(s)
    ensures FindById(r.0, r.1.id) == Some(r.1)
    ensures forall y :: y != r.1.id ==> FindById(r.0, y) == FindById(s, y)
  {
    var c := Category(s.nextId, name, parentId);
    var rows := s.rows + [c];
    assert forall i :: 0 <= i < |s.rows| ==> rows[i] == s.rows[i];
    assert IdsOf(rows) == IdsOf(s.rows) + {c.id};
    assert UniqueIds(rows) by {
      forall i, j | 0 <= i < j < |rows| ensures rows[i].id != rows[j].id {
        if j == |s.rows| { assert rows[i].id < s.nextId; }
      }
    }
    (Store(rows, s.nextId + 1), c)
  }

  /** With unique ids the number of rows is the number of distinct ids. */
  lemma {:induction false} IdsOfCount(rows: seq<Category>)
    requires UniqueIds(rows)
    ensures |IdsOf(rows)| == |rows|
  {
    if rows != [] {
      IdsOfCount(rows[1..]);
      assert IdsOf(rows) == {rows[0].id} + IdsOf(rows[1..]);
      assert rows[0].id !in IdsOf(rows[1..]);
    }
  }

  /** `all` returns every stored category exactly once: its count is the number of ids in the store. */
  lemma AllCountsEveryCategory(s: Db)
    ensures |All(s)| == |Ids(s)|
    ensures forall id :: id in Ids(s) <==> exists c :: c in All(s) && c.id == id
  {
    IdsOfCount(s.rows);
  }

  /** A record's children are exactly the records whose parent is that record. */
  lemma ChildrenAreThoseWithParent(s: Db, id: int, c: Category)
    requires c in s.rows
    ensures c in Children(s, id) <==> FindById(s, c.id).value.parentId == Some(id)
  {
  }
}

=== FILE: category_service.dfy ===
/**
 * The category service: create, update and delete with their ordered
 * checks, and the upward walk that guards updates against cycles.
 * Every operation is one state transition: it returns the new store, or an
 * error and no store at all, so a failed call leaves the store unchanged.
 */
module CategoryService {
  import opened Base
  import opened CategoryRepository
  import opened Ancestry

  /** The exceptions the service raises, distinguished by kind. */
  datatype CategoryError =
    | CategoryNotFound(id: int)
    | SelfParent
    | ParentNotFound(parentId: int)
    | CyclicHierarchy
      /** The upward walk revisits a category without reaching the target: the `while` loop of `isDescendant` never ends. */
    | AncestorWalkDiverges

  /** How the upward walk of `isDescendant` ends. */
  datatype Walk = Reached | Ended | Looping

  /**
   * The loop body of `isDescendant`: from `cur`, follow `parent_id` until it
   * equals `target` (Reached), is null or dangles (Ended), or comes back to a
   * category already loaded (Looping, where the PHP loop never terminates).
   * `unvisited` holds the stored ids not yet loaded.
   */
  function Climb(s: Db, cur: Category, target: int, unvisited: set<int>): Walk
    decreases unvisited
  {
    match cur.parentId
    case None => Ended
    case Some(q) =>
      if q == target then Reached
      else match FindById(s, q)
        case None => Ended
        case Some(next) =>
          if q in unvisited then Climb(s, next, target, unvisited - {q}) else Looping
  }

  /** `isDescendant(potentialDescendantId, categoryId)`. */
  function IsDescendant(s: Db, potentialDescendantId: int, categoryId: int): Walk {
    match FindById(s, potentialDescendantId)
    case None => Ended
    case Some(d) => Climb(s, d, categoryId, Ids(s) - {potentialDescendantId})
  }

  /**
   * What the walk has seen so far: every loaded category other than `cur`
   * was left through a parent pointer that is stored, already loaded and not
   * the target.
   */
  ghost predicate Passed(s: Db, unvisited: set<int>, cur: int, target: int) {
    forall v {:trigger ParentOf(s, v)} :: v in Ids(s) && v !in unvisited && v != cur ==>
      && ParentOf(s, v).Some? && ParentOf(s, v).value in Ids(s)
      && ParentOf(s, v).value !in unvisited && ParentOf(s, v).value != target
  }

  /** The ids `vs` are closed under parent pointers, and none of those pointers is `target`. */
  ghost predicate ClosedAvoiding(s: Db, vs: set<int>, target: int) {
    forall v {:trigger ParentOf(s, v)} :: v in vs ==> ParentOf(s, v).Some? && ParentOf(s, v).value in vs && ParentOf(s, v).value != target
  }

  /** From inside a closed set the chain never stops and never reaches `target`. */
  lemma {:induction false} ClosedChain(s: Db, vs: set<int>, target: int, x: int, k: nat)
    requires ClosedAvoiding(s, vs, target) && x in vs
    ensures Ancestor(s, x, k).Some? && Ancestor(s, x, k).value in vs
    ensures k > 0 ==> Ancestor(s, x, k) != Some(target)
    decreases k
  {
    if k > 0 {
      assert ParentOf(s, x).Some? && ParentOf(s, x).value in vs;
      var w := ParentOf(s, x).value;
      assert Ancestor(s, x, k) == Ancestor(s, w, k - 1);
      ClosedChain(s, vs, target, w, k - 1);
    }
  }

  /**
   * The walk comes back to the loaded category `q`: from `cur` on, the chain
   * runs through loaded categories only, so it never stops and never meets
   * the target.
   */
  lemma LoopAvoids(s: Db, cur: Category, q: int, target: int, unvisited: set<int>)
    requires cur in s.rows && cur.id !in unvisited && Passed(s, unvisited, cur.id, target)
    requires cur.parentId == Some(q) && q != target && q in Ids(s) && q !in unvisited
    ensures forall k: nat :: Ancestor(s, cur.id, k).Some? && (k > 0 ==> Ancestor(s, cur.id, k) != Some(target))
  {
    var vs := Ids(s) - unvisited;
    assert FindById(s, cur.id) == Some(cur);
    assert ClosedAvoiding(s, vs, target);
    forall k: nat ensures Ancestor(s, cur.id, k).Some? && (k > 0 ==> Ancestor(s, cur.id, k) != Some(target)) {
      ClosedChain(s, vs, target, cur.id, k);
    }
  }

  /** A chain that never stops rules out acyclicity. */
  lemma EndlessBreaksAcyclic(s: Db, x: int)
    requires x in Ids(s) && forall k: nat :: Ancestor(s, x, k).Some?
    ensures !Acyclic(s)
  {
  }

  /**
   * The walk from `cur` answers Reached exactly when `target` is a strict
   * ancestor of `cur`. It answers Ended only when the chain of `cur` stops,
   * and Looping only when that chain never stops, which needs a cycle.
   */
  lemma {:induction false} ClimbCorrect(s: Db, cur: Category, target: int, unvisited: set<int>)
    requires cur in s.rows && cur.id !in unvisited
    requires Passed(s, unvisited, cur.id, target)
    ensures Climb(s, cur, target, unvisited) == Reached <==> IsStrictAncestor(s, target, cur.id)
    ensures Climb(s, cur, target, unvisited) == Ended ==> exists k: nat :: Ancestor(s, cur.id, k) == None
    ensures Climb(s, cur, target, unvisited) == Looping ==> forall k: nat :: Ancestor(s, cur.id, k).Some?
    ensures Climb(s, cur, target, unvisited) == Looping ==> !Acyclic(s)
    decreases unvisited
  {
    assert FindById(s, cur.id) == Some(cur);
    assert ParentOf(s, cur.id) == cur.parentId;
    var w := Climb(s, cur, target, unvisited);
    match cur.parentId
    case None =>
      forall k: nat | k > 0 ensures Ancestor(s, cur.id, k) == None {
      }
      assert Ancestor(s, cur.id, 1) == None;
    case Some(q) =>
      assert Ancestor(s, cur.id, 1) == Some(q);
      if q != target {
        forall k: nat | k > 1 ensures Ancestor(s, cur.id, k) == Ancestor(s, q, k - 1) {
        }
        match FindById(s, q)
        case None =>
          forall k: nat | k > 0 ensures Ancestor(s, q, k) == None {
          }
          assert Ancestor(s, cur.id, 2) == None;
        case Some(next) =>
          if q in unvisited {
            ClimbCorrect(s, next, target, unvisited - {q});
            if IsStrictAncestor(s, target, q) {
              var k: nat :| k > 0 && Ancestor(s, q, k) == Some(target);
              assert Ancestor(s, cur.id, k + 1) == Some(target);
            }
            if IsStrictAncestor(s, target, cur.id) {
              var k: nat :| k > 0 && Ancestor(s, cur.id, k) == Some(target);
              assert Ancestor(s, q, k - 1) == Some(target);
            }
            if w == Ended {
              var k: nat :| Ancestor(s, q, k) == None;
              assert Ancestor(s, cur.id, k + 1) == None;
            }
            if w == Looping {
              forall k: nat ensures Ancestor(s, cur.id, k).Some? {
                if k > 0 {
                  assert Ancestor(s, cur.id, k) == Ancestor(s, q, k - 1);
                }
              }
            }
          } else {
            LoopAvoids(s, cur, q, target, unvisited);
          }
      }
    if w == Looping {
      EndlessBreaksAcyclic(s, cur.id);
    }
  }

  /**
   * `isDescendant(p, c)` reports true exactly when `c` is a strict ancestor of
   * `p`, on every store. A missing `p` or a dangling pointer ends the walk
   * with false. The walk fails to terminate exactly when `c` is not a strict
   * ancestor of `p` and the chain of `p` never stops, which needs a cycle.
   */
  lemma IsDescendantCorrect(s: Db, p: int, c: int)
    ensures IsDescendant(s, p, c) == Reached <==> IsStrictAncestor(s, c, p)
    ensures p !in Ids(s) ==> IsDescendant(s, p, c) == Ended
    ensures IsDescendant(s, p, c) == Ended ==> exists k: nat :: Ancestor(s, p, k) == None
    ensures IsDescendant(s, p, c) == Looping ==> !IsStrictAncestor(s, c, p)
    ensures IsDescendant(s, p, c) == Looping ==> forall k: nat :: Ancestor(s, p, k).Some?
    ensures !IsStrictAncestor(s, c, p) && (forall k: nat :: Ancestor(s, p, k).Some?) ==> IsDescendant(s, p, c) == Looping
    ensures IsDescendant(s, p, c) == Looping ==> !Acyclic(s)
  {
    match FindById(s, p) {
      case None =>
        forall k: nat | k > 0 ensures Ancestor(s, p, k) == None {
        }
        assert Ancestor(s, p, 1) == None;
      case Some(d) =>
        ClimbCorrect(s, d, c, Ids(s) - {p});
    }
    if IsDescendant(s, p, c) == Ended {
      var k: nat :| Ancestor(s, p, k) == None;
      assert !Ancestor(s, p, k).Some?;
    }
  }

  /** `IsDescendantCorrect` for a parent pointer that may be null. */
  lemma ProposedParentCorrect(s: Db, id: int, parentId: Option<int>)
    ensures parentId.Some? && IsDescendant(s, parentId.value, id) == Ended ==> !IsStrictAncestor(s, id, parentId.value)
    ensures parentId.Some? && IsDescendant(s, parentId.value, id) == Ended ==> exists k: nat :: Ancestor(s, parentId.value, k) == None
  {
    if parentId.Some? {
      IsDescendantCorrect(s, parentId.value, id);
    }
  }

  /** Replaces the stored record that has `c.id` by `c`. */
  function Replace(s: Db, c: Category): (r: Db)
    requires c.id in Ids(s)
    ensures Ids(r) == Ids(s)
    ensures FindById(r, c.id) == Some(c)
    ensures forall y :: y != c.id ==> FindById(r, y) == FindById(s, y)
    ensures Order(All(r)) == Order(All(s))
  {
    var rows := seq(|s.rows|, i requires 0 <= i < |s.rows| => if s.rows[i].id == c.id then c else s.rows[i]);
    assert forall i :: 0 <= i < |rows| ==> rows[i].id == s.rows[i].id;
    assert Order(rows) == Order(s.rows);
    assert IdsOf(rows) == IdsOf(s.rows) by {
      forall y | y in IdsOf(s.rows) ensures y in IdsOf(rows) {
        var i :| 0 <= i < |s.rows| && s.rows[i].id == y;
        assert rows[i].id == y;
      }
    }
    var r := Store(rows, s.nextId);
    assert r.WellKeyed();
    forall y ensures FindById(r, y) == (if y == c.id then Some(c) else FindById(s, y)) {
      if y in Ids(s) {
        var i :| 0 <= i < |s.rows| && s.rows[i].id == y;
        assert rows[i] in r.rows;
      }
    }
    r
  }

  /**
   * `createCategory`: a non-null parent must exist; the new record gets a
   * fresh id, the given name and parent, and nothing else changes.
   */
  function CreateCategory(s: Db, name: string, parentId: Option<int>): (r: Result<(Db, Category), CategoryError>)
    ensures r.Err? <==> parentId.Some? && parentId.value !in Ids(s)
    ensures r.Err? ==> r.error == ParentNotFound(parentId.value)
    ensures r.Ok? ==> var (s', c) := r.value;
      && c.name == name && c.parentId == parentId
      && c.id !in Ids(s)
      && Ids(s') == Ids(s) + {c.id}
      && FindById(s', c.id) == Some(c)
      && (forall y :: y != c.id ==> FindById(s', y) == FindById(s, y))
  {
    if parentId.Some? && FindById(s, parentId.value).None? then
      Err(ParentNotFound(parentId.value))
    else
      Ok(Create(s, name, parentId))
  }

  /**
   * `updateCategory`: the checks run in a fixed order (missing category,
   * self-parent, missing parent, cycle) and only an accepted update writes,
   * setting the name and the parent of that one record together. On a
   * cyclic store the walk may never return: that outcome is the extra error
   * `AncestorWalkDiverges`, and an accepted parent always has a chain that
   * stops.
   */
  function UpdateCategory(s: Db, id: int, name: string, parentId: Option<int>): (r: Result<(Db, Category), CategoryError>)
    ensures id !in Ids(s) ==> r == Err(CategoryNotFound(id))
    ensures id in Ids(s) && parentId == Some(id) ==> r == Err(SelfParent)
    ensures (id in Ids(s) && parentId.Some? && parentId.value != id && parentId.value !in Ids(s))
              ==> r == Err(ParentNotFound(parentId.value))
    ensures r == Err(CyclicHierarchy) ==> parentId.Some? && IsStrictAncestor(s, id, parentId.value)
    ensures id in Ids(s) && parentId.None? ==> r.Ok?
    ensures r == Err(AncestorWalkDiverges) ==>
              && parentId.Some? && !Acyclic(s) && !IsStrictAncestor(s, id, parentId.value)
              && (forall k: nat :: Ancestor(s, parentId.value, k).Some?)
    ensures id in Ids(s) && parentId.Some? && parentId.value != id && parentId.value in Ids(s) ==>
              (r == Err(CyclicHierarchy) <==> IsStrictAncestor(s, id, parentId.value))
    ensures (id in Ids(s) && parentId.Some? && parentId.value != id && parentId.value in Ids(s)
             && !IsStrictAncestor(s, id, parentId.value) && (forall k: nat :: Ancestor(s, parentId.value, k).Some?))
              ==> r == Err(AncestorWalkDiverges)
    ensures r.Ok? && parentId.Some? ==> exists k: nat :: Ancestor(s, parentId.value, k) == None
    ensures r.Ok? ==> id in Ids(s)
    ensures r.Ok? && parentId.Some? ==>
              parentId.value != id && parentId.value in Ids(s) && !IsStrictAncestor(s, id, parentId.value)
    ensures r.Ok? ==> var (s', c) := r.value;
      && c == Category(id, name, parentId)
      && Ids(s') == Ids(s)
      && FindById(s', id) == Some(c)
      && (forall y :: y != id ==> FindById(s', y) == FindById(s, y))
      && Order(All(s')) == Order(All(s))
  {
    match FindById(s, id)
    case None => Err(CategoryNotFound(id))
    case Some(current) =>
      if parentId.Some? && parentId.value == id then Err(SelfParent)
      else if parentId.Some? && FindById(s, parentId.value).None? then Err(ParentNotFound(parentId.value))
      else if parentId.Some? && IsDescendant(s, parentId.value, id) == Reached then
        IsDescendantCorrect(s, parentId.value, id);
        Err(CyclicHierarchy)
      else if parentId.Some? && IsDescendant(s, parentId.value, id) == Looping then
        IsDescendantCorrect(s, parentId.value, id);
        Err(AncestorWalkDiverges)
      else
        ProposedParentCorrect(s, id, parentId);
        var c := current.(name := name, parentId := parentId);
        Ok((Replace(s, c), c))
  }

  /** `c` moved to the parent `to` when it is a child of `from`, unchanged otherwise. */
  function Adopt(c: Category, from: int, to: Option<int>): Category {
    if c.parentId == Some(from) then c.(parentId := to) else c
  }

  /** Every child of `from` moved to the parent `to`; ids, names and all other records untouched. */
  function ReparentChildren(s: Db, from: int, to: Option<int>): (r: Db)
    ensures Ids(r) == Ids(s)
    ensures forall y :: FindById(r, y) == match FindById(s, y)
                                          case None => None
                                          case Some(c) => Some(Adopt(c, from, to))
    ensures Order(All(r)) == Order(All(s))
  {
    var rows := seq(|s.rows|, i requires 0 <= i < |s.rows| => Adopt(s.rows[i], from, to));
    assert forall i :: 0 <= i < |rows| ==> rows[i].id == s.rows[i].id;
    assert Order(rows) == Order(s.rows);
    assert IdsOf(rows) == IdsOf(s.rows) by {
      forall y | y in IdsOf(s.rows) ensures y in IdsOf(rows) {
        var i :| 0 <= i < |s.rows| && s.rows[i].id == y;
        assert rows[i].id == y;
      }
    }
    var r := Store(rows, s.nextId);
    assert r.WellKeyed();
    forall y ensures FindById(r, y) == match FindById(s, y)
                                       case None => None
                                       case Some(c) => Some(Adopt(c, from, to))
    {
      if y in Ids(s) {
        var i :| 0 <= i < |s.rows| && s.rows[i].id == y;
        assert rows[i] in r.rows;
      }
    }
    r
  }

  /** The store without the record `id`; every other record untouched. */
  function Remove(s: Db, id: int): (r: Db)
    ensures Ids(r) == Ids(s) - {id}
    ensures FindById(r, id) == None
    ensures forall y :: y != id ==> FindById(r, y) == FindById(s, y)
    ensures Order(All(r)) == Without(Order(All(s)), id)
  {
    var keep := (c: Category) => c.id != id;
    var rows := Where(s.rows, keep);
    OrderWhere(s.rows, id, keep);
    var r := Store(rows, s.nextId);
    assert r.WellKeyed() by {
      forall i | 0 <= i < |rows| ensures 0 < rows[i].id < s.nextId {
        assert rows[i] in s.rows;
      }
    }
    assert Ids(r) == Ids(s) - {id} by {
      forall y | y in Ids(s) - {id} ensures y in Ids(r) {
        var i :| 0 <= i < |s.rows| && s.rows[i].id == y;
        assert s.rows[i] in rows;
      }
    }
    forall y | y != id ensures FindById(r, y) == FindById(s, y) {
      if y in Ids(s) {
        var i :| 0 <= i < |s.rows| && s.rows[i].id == y;
        assert s.rows[i] in rows;
      }
    }
    r
  }

  /**
   * `deleteCategory`: fails on a missing id; otherwise every direct child is
   * moved up to the deleted category's own parent (possibly null), the
   * record is removed, and every other record stays as it was.
   */
  function DeleteCategory(s: Db, id: int): (r: Result<Db, CategoryError>)
    ensures r.Err? <==> id !in Ids(s)
    ensures r.Err? ==> r.error == CategoryNotFound(id)
    ensures r.Ok? ==> Ids(r.value) == Ids(s) - {id}
    ensures r.Ok? ==> Order(All(r.value)) == Without(Order(All(s)), id)
    ensures r.Ok? ==> forall y :: y in Ids(s) && y != id && ParentOf(s, y) == Some(id) ==>
              FindById(r.value, y) == Some(FindById(s, y).value.(parentId := ParentOf(s, id)))
    ensures r.Ok? ==> forall y :: y in Ids(s) && y != id && ParentOf(s, y) != Some(id) ==>
              FindById(r.value, y) == FindById(s, y)
    ensures r.Ok? && ParentOf(s, id) != Some(id) ==>
              forall c :: c in All(r.value) ==> c.parentId != Some(id)
  {
    match FindById(s, id)
    case None => Err(CategoryNotFound(id))
    case Some(target) =>
      var r := Remove(ReparentChildren(s, id, target.parentId), id);
      assert forall c :: c in All(r) ==> FindById(r, c.id) == Some(c);
      Ok(r)
  }
}

=== FILE: create_category_request.dfy ===
/**
 * The validation rules of the category form: the name is required, at most
 * 255 characters and unique among stored names (the category being edited
 * excepted); the parent is either null or a stored id. The rules decide
 * only these; self-parenting and cycles are left to the service.
 */
module CreateCategoryRequest {
  import opened Base
  import opened CategoryRepository
  import opened Ancestry
  import opened CategoryService
  import opened PhpStrings

  /** The longest name the form accepts. */
  const MaxNameLength := 255

  /** The rule that an input breaks. */
  datatype Violation =
    | NameRequired   // `name` missing, null or blank
    | NameTooLong    // `max:255`
    | NameTaken      // `unique:categories,name`, ignoring the edited id
    | ParentMissing  // `exists:categories,id` on a non-null `parent_id`

  /**
   * Laravel's `required` rejects a blank string, one made only of trim
   * characters: it is blank exactly when `trim` leaves nothing of it.
   */
  lemma BlankIsTrimmedEmpty(name: string)
    ensures AllTrimChars(name) <==> Trim(name) == ""
  {
    if AllTrimChars(name) {
      TrimLeftPadded(name, []);
      assert name + [] == name;
    }
    if Trim(name) == "" {
      TrimCutsOnlyEnds(name);
      var i :| 0 <= i <= |name| && AllTrimChars(name[..i]) && AllTrimChars(name[i..]);
      forall k | 0 <= k < |name| ensures TrimChar(name[k]) {
        if k < i {
          assert name[..i][k] == name[k];
        } else {
          assert name[i..][k - i] == name[k];
        }
      }
    }
  }

  /** Some stored category other than the one being edited already carries `name`. */
  predicate NameInUse(s: Db, name: string, editing: Option<int>) {
    exists c :: c in s.rows && c.name == name && editing != Some(c.id)
  }

  /**
   * `rules()` applied to one submission. `editing` is the id of the category
   * on the route, present on edit and absent on create. A blank name breaks
   * only `required`: Laravel skips the other rules of an empty attribute.
   */
  function Violations(s: Db, name: Option<string>, parentId: Option<int>, editing: Option<int>): set<Violation> {
    NameViolations(s, name, editing) + ParentViolations(s, parentId)
  }

  /** The rules on `name`: `required`, then `max:255` and `unique` on a name that is not blank. */
  function NameViolations(s: Db, name: Option<string>, editing: Option<int>): (v: set<Violation>)
    ensures name.None? || AllTrimChars(name.value) ==> v == {NameRequired}
    ensures name.Some? && !AllTrimChars(name.value) ==>
      && NameRequired !in v
      && (NameTooLong in v <==> |name.value| > MaxNameLength)
      && (NameTaken in v <==> NameInUse(s, name.value, editing))
    ensures ParentMissing !in v
  {
    match name
    case None => {NameRequired}
    case Some(n) =>
      if AllTrimChars(n) then {NameRequired}
      else (
        (if |n| > MaxNameLength then {NameTooLong} else {})
        + (if NameInUse(s, n, editing) then {NameTaken} else {}))
  }

  function ParentViolations(s: Db, parentId: Option<int>): (v: set<Violation>)
    ensures v == {} || v == {ParentMissing}
  {
    if parentId.Some? && FindById(s, parentId.value).None? then {ParentMissing} else {}
  }

  predicate Accepted(s: Db, name: Option<string>, parentId: Option<int>, editing: Option<int>) {
    Violations(s, name, parentId, editing) == {}
  }

  /** A submission passes exactly when its name is present, not blank, short enough and free, and its parent is null or stored. */
  lemma AcceptedExactly(s: Db, name: Option<string>, parentId: Option<int>, editing: Option<int>)
    ensures Accepted(s, name, parentId, editing) <==>
      && name.Some? && !AllTrimChars(name.value) && |name.value| <= MaxNameLength
      && !NameInUse(s, name.value, editing)
      && (parentId.Some? ==> parentId.value in Ids(s))
  {
    var nv := NameViolations(s, name, editing);
    var pv := ParentViolations(s, parentId);
    assert Violations(s, name, parentId, editing) == nv + pv;
    if name.Some? && !AllTrimChars(name.value) {
      assert |name.value| > MaxNameLength ==> NameTooLong in nv;
      assert NameInUse(s, name.value, editing) ==> NameTaken in nv;
    }
  }

  /** No two stored categories share a name. */
  ghost predicate DistinctNames(s: Db) {
    forall c, d :: c in s.rows && d in s.rows && c.name == d.name ==> c.id == d.id
  }

  /** A missing or blank name is rejected, whatever else is submitted. */
  lemma BlankNameRejected(s: Db, name: Option<string>, parentId: Option<int>, editing: Option<int>)
    requires name.None? || Trim(name.value) == ""
    ensures NameRequired in Violations(s, name, parentId, editing)
    ensures !Accepted(s, name, parentId, editing)
  {
    if name.Some? {
      BlankIsTrimmedEmpty(name.value);
    }
  }

  /** A name longer than 255 characters is never accepted. */
  lemma LongNameRejected(s: Db, name: string, parentId: Option<int>, editing: Option<int>)
    requires |name| > MaxNameLength
    ensures !Accepted(s, Some(name), parentId, editing)
  {
    var v := NameViolations(s, Some(name), editing);
    assert v != {} by {
      if !AllTrimChars(name) {
        assert NameTooLong in v;
      } else {
        assert NameRequired in v;
      }
    }
  }

  /** The name of a stored category is taken for every other submission. */
  lemma TakenNameRejected(s: Db, c: Category, parentId: Option<int>, editing: Option<int>)
    requires c in s.rows && editing != Some(c.id)
    ensures !Accepted(s, Some(c.name), parentId, editing)
  {
    if !AllTrimChars(c.name) {
      assert NameTaken in Violations(s, Some(c.name), parentId, editing);
    } else {
      assert NameRequired in Violations(s, Some(c.name), parentId, editing);
    }
  }

  /**
   * Re-submitting a stored category unchanged is accepted on its own edit
   * form, provided its name and parent were valid to begin with.
   */
  lemma OwnNameAccepted(s: Db, c: Category)
    requires c in s.rows && DistinctNames(s) && ParentsExist(s)
    requires !AllTrimChars(c.name) && |c.name| <= MaxNameLength
    ensures Accepted(s, Some(c.name), c.parentId, Some(c.id))
  {
    forall d | d in s.rows && d.name == c.name ensures Some(c.id) == Some(d.id) {
    }
    assert !NameInUse(s, c.name, Some(c.id));
  }

  /** The parent rule rejects exactly the parents the service would refuse on create. */
  lemma ParentRuleMatchesCreate(s: Db, name: Option<string>, parentId: Option<int>, editing: Option<int>, n: string)
    ensures ParentMissing in Violations(s, name, parentId, editing) <==> CreateCategory(s, n, parentId).Err?
  {
  }

  /** The rules let a category name itself as parent: the service is what refuses it. */
  lemma SelfParentPassesRules(s: Db, c: Category)
    requires c in s.rows
    ensures ParentMissing !in Violations(s, Some(c.name), Some(c.id), Some(c.id))
    ensures UpdateCategory(s, c.id, c.name, Some(c.id)) == Err(SelfParent)
  {
    assert FindById(s, c.id) == Some(c);
  }

  /** An accepted create form always leads to a successful create, and keeps stored names distinct. */
  lemma AcceptedCreateKeepsNamesDistinct(s: Db, name: string, parentId: Option<int>)
    requires DistinctNames(s) && Accepted(s, Some(name), parentId, None)
    ensures CreateCategory(s, name, parentId).Ok?
    ensures DistinctNames(CreateCategory(s, name, parentId).value.0)
  {
    AcceptedParts(s, name, parentId, None);
    var (s', c) := CreateCategory(s, name, parentId).value;
    forall a, b | a in s'.rows && b in s'.rows && a.name == b.name ensures a.id == b.id {
      StoredIn(s, s', c, a);
      StoredIn(s, s', c, b);
    }
  }

  /** An accepted form names no missing parent and no name in use. */
  lemma AcceptedParts(s: Db, name: string, parentId: Option<int>, editing: Option<int>)
    requires Accepted(s, Some(name), parentId, editing)
    ensures parentId.Some? ==> parentId.value in Ids(s)
    ensures !NameInUse(s, name, editing)
  {
    assert ParentViolations(s, parentId) == {};
    assert NameViolations(s, Some(name), editing) == {};
  }

  /** After a write that touched only `c`, a stored record is `c` or was stored before. */
  lemma StoredIn(s: Db, s': Db, c: Category, a: Category)
    requires a in s'.rows && FindById(s', c.id) == Some(c)
    requires forall y :: y != c.id ==> FindById(s', y) == FindById(s, y)
    ensures a == c || (a in s.rows && a.id != c.id)
  {
    assert FindById(s', a.id) == Some(a);
    if a.id != c.id {
      assert FindById(s, a.id) == Some(a);
    }
  }

  /** An accepted edit form that the service carries out keeps stored names distinct. */
  lemma AcceptedUpdateKeepsNamesDistinct(s: Db, id: int, name: string, parentId: Option<int>)
    requires DistinctNames(s) && Accepted(s, Some(name), parentId, Some(id))
    requires UpdateCategory(s, id, name, parentId).Ok?
    ensures DistinctNames(UpdateCategory(s, id, name, parentId).value.0)
  {
    AcceptedParts(s, name, parentId, Some(id));
    var (s', c) := UpdateCategory(s, id, name, parentId).value;
    forall a, b | a in s'.rows && b in s'.rows && a.name == b.name ensures a.id == b.id {
      StoredIn(s, s', c, a);
      StoredIn(s, s', c, b);
    }
  }
}

=== FILE: create_product_command.dfy ===
/**
 * The part of the `product:create` console command that the category
 * engine decides: the price guard, then the `--categories` option turned
 * into a list of ids that must all be stored.
 */
module CreateProductCommand {
  import opened Base
  import opened CategoryRepository
  import opened PhpStrings

  /** How the checks of the command end. */
  datatype Outcome =
    | PriceNotPositive
      /** The first kept token whose id is not stored, as it was written. */
    | UnknownCategory(token: string)
      /** The checks passed; the product is created with these category ids. */
    | Proceed(ids: seq<int>)

  /** `array_filter` without a callback: the tokens PHP counts as true, in order. */
  function KeepTruthy(ts: seq<string>): (r: seq<string>)
    ensures |r| <= |ts|
    ensures forall t :: t in r <==> t in ts && !Falsy(t)
    ensures (forall i :: 0 <= i < |ts| ==> !Falsy(ts[i])) ==> r == ts
    ensures |ts| == 1 ==> r == (if Falsy(ts[0]) then [] else ts)
  {
    if ts == [] then []
    else
      var rest := KeepTruthy(ts[1..]);
      assert forall t :: t in ts <==> t == ts[0] || t in ts[1..];
      if Falsy(ts[0]) then rest else [ts[0]] + rest
  }

  /** The kept tokens of the option: none when it is absent or falsy, else split on commas, trimmed and filtered. */
  function CategoryTokens(option: Option<string>): (r: seq<string>)
    ensures forall i :: 0 <= i < |r| ==> !Falsy(r[i])
  {
    match option
    case None => []
    case Some(o) => if Falsy(o) then [] else CommaTokens(o)
  }

  /** The option split on commas, each piece trimmed, the falsy pieces dropped. */
  function CommaTokens(o: string): seq<string> {
    KeepTruthy(Map(Trim, Split(o, ',')))
  }

  /** Every kept token is already trimmed. */
  lemma TokensTrimmed(option: Option<string>)
    ensures forall t :: t in CategoryTokens(option) ==> Trim(t) == t
  {
    if option.Some? && !Falsy(option.value) {
      CommaTokensTrimmed(option.value);
    }
  }

  lemma CommaTokensTrimmed(o: string)
    ensures forall t :: t in CommaTokens(o) ==> Trim(t) == t
  {
    var ps := Split(o, ',');
    var ts := Map(Trim, ps);
    forall t | t in CommaTokens(o) ensures Trim(t) == t {
      assert t in ts;
      var j :| 0 <= j < |ts| && t == ts[j];
      TrimIdempotent(ps[j]);
    }
  }

  /** The position of the first id that is not stored, if any. */
  function FirstMissing(s: Db, ids: seq<int>): (r: Option<nat>)
    ensures r.Some? ==> r.value < |ids| && ids[r.value] !in Ids(s)
    ensures r.Some? ==> forall k :: 0 <= k < r.value ==> ids[k] in Ids(s)
    ensures r.None? <==> forall k :: 0 <= k < |ids| ==> ids[k] in Ids(s)
  {
    if ids == [] then None
    else if FindById(s, ids[0]).None? then Some(0)
    else
      var rest := FirstMissing(s, ids[1..]);
      assert forall k :: 1 <= k < |ids| ==> ids[k] == ids[1..][k - 1];
      match rest
      case None => None
      case Some(k) => Some(k + 1)
  }

  /** The `foreach` that looks every id up, stopping at the first one that is not stored. */
  method CheckCategories(s: Db, ids: seq<int>) returns (missing: Option<nat>)
    ensures missing == FirstMissing(s, ids)
  {
    var i := 0;
    while i < |ids|
      invariant 0 <= i <= |ids|
      invariant forall k :: 0 <= k < i ==> ids[k] in Ids(s)
    {
      if FindById(s, ids[i]).None? {
        FirstMissingAt(s, ids, i);
        return Some(i);
      }
      i := i + 1;
    }
    return None;
  }

  /** A missing id after only stored ones is the first missing id. */
  lemma FirstMissingAt(s: Db, ids: seq<int>, i: nat)
    requires i < |ids| && ids[i] !in Ids(s)
    requires forall k :: 0 <= k < i ==> ids[k] in Ids(s)
    ensures FirstMissing(s, ids) == Some(i)
  {
    var r := FirstMissing(s, ids);
    if r.Some? {
      assert !(r.value < i) && !(i < r.value);
    }
  }

  /**
   * `handle()` up to the point where the product is created: a non-positive
   * price fails before the option is read; otherwise the first kept token
   * that names no stored category fails; otherwise the ids go through.
   * The price is the value after the `(float)` cast.
   */
  function Handle(s: Db, price: real, categories: Option<string>): (r: Outcome)
    ensures r == PriceNotPositive <==> price <= 0.0
    ensures r.UnknownCategory? ==> r.token in CategoryTokens(categories) && ToInt(r.token) !in Ids(s)
    ensures r.UnknownCategory? ==>
      (exists i :: 0 <= i < |CategoryTokens(categories)| && CategoryTokens(categories)[i] == r.token &&
        (forall k :: 0 <= k < i ==> ToInt(CategoryTokens(categories)[k]) in Ids(s)))
    ensures r.Proceed? ==> |r.ids| == |CategoryTokens(categories)|
    ensures r.Proceed? ==> forall i :: 0 <= i < |r.ids| ==> r.ids[i] == ToInt(CategoryTokens(categories)[i]) && r.ids[i] in Ids(s)
  {
    if price <= 0.0 then PriceNotPositive
    else
      var ts := CategoryTokens(categories);
      var ids := Map(ToInt, ts);
      match FirstMissing(s, ids)
      case Some(i) => UnknownCategory(ts[i])
      case None => Proceed(ids)
  }

  /** An absent or falsy option, `"0"` included, means no categories. */
  lemma FalsyOptionNoCategories(s: Db, price: real, categories: Option<string>)
    requires price > 0.0 && (categories.None? || Falsy(categories.value))
    ensures Handle(s, price, categories) == Proceed([])
  {
  }

  /** `array_filter` distributes over concatenation. */
  lemma {:induction false} KeepTruthyAppend(x: seq<string>, y: seq<string>)
    ensures KeepTruthy(x + y) == KeepTruthy(x) + KeepTruthy(y)
    decreases |x|
  {
    if x != [] {
      assert (x + y)[0] == x[0] && (x + y)[1..] == x[1..] + y;
      KeepTruthyAppend(x[1..], y);
    } else {
      assert x + y == y;
    }
  }

  /** The pieces of `o` followed by `,0` are the pieces of `o` and a falsy `0`. */
  lemma AppendZeroPieces(o: string)
    ensures CommaTokens(o + [','] + "0") == CommaTokens(o)
  {
    var ps := Split(o, ',');
    SplitAppend(o, "0", ',');
    assert Split("0", ',') == ["0"];
    TrimPadded([], "0", []);
    assert [] + "0" + [] == "0";
    assert Map(Trim, ["0"]) == ["0"];
    MapAppend(Trim, ps, ["0"]);
    KeepTruthyAppend(Map(Trim, ps), ["0"]);
    assert KeepTruthy(["0"]) == [];
    assert Map(Trim, ps + ["0"]) == Map(Trim, ps) + ["0"];
    assert KeepTruthy(Map(Trim, ps) + ["0"]) == KeepTruthy(Map(Trim, ps));
  }

  /** A falsy option split anyway would leave no kept token either. */
  lemma FalsyPieces(o: string)
    requires Falsy(o)
    ensures CommaTokens(o) == []
  {
    TrimPadded([], "0", []);
    assert [] + "0" + [] == "0";
    if o == "" {
      assert Split(o, ',') == [""];
      assert Trim("") == "";
      assert Map(Trim, [""]) == [""];
    } else {
      assert Split(o, ',') == ["0"];
      assert Map(Trim, ["0"]) == ["0"];
    }
  }

  /** Appending `,0` to the option never changes the outcome: the extra token `0` is falsy and dropped. */
  lemma ZeroTokenDropped(s: Db, price: real, o: string)
    ensures Handle(s, price, Some(o + ",0")) == Handle(s, price, Some(o))
  {
    ZeroTokenIgnored(o);
    SameTokensSameOutcome(s, price, Some(o + ",0"), Some(o));
  }

  lemma ZeroTokenIgnored(o: string)
    ensures CategoryTokens(Some(o + ",0")) == CategoryTokens(Some(o))
  {
    var o' := o + [','] + "0";
    assert o + ",0" == o' && |o'| >= 2;
    AppendZeroPieces(o);
    if Falsy(o) {
      FalsyPieces(o);
    }
  }

  /** The command sees the option only through its kept tokens. */
  lemma SameTokensSameOutcome(s: Db, price: real, a: Option<string>, b: Option<string>)
    requires CategoryTokens(a) == CategoryTokens(b)
    ensures Handle(s, price, a) == Handle(s, price, b)
  {
  }

  /** The rendered ids `ns`, each with padding on both sides. */
  function PadEach(ns: seq<int>, lead: string, trail: string): (r: seq<string>)
    ensures |r| == |ns| && forall i :: 0 <= i < |ns| ==> r[i] == lead + Show(ns[i]) + trail
  {
    seq(|ns|, i requires 0 <= i < |ns| => lead + Show(ns[i]) + trail)
  }

  /** The option written for the ids `ns`: each rendered with padding around it, joined by commas. */
  function Render(ns: seq<int>, lead: string, trail: string): string {
    Join(PadEach(ns, lead, trail), ',')
  }

  /** The `(int)` cast reads back a list of rendered ids. */
  lemma ReadBack(ns: seq<int>)
    ensures Map(ToInt, Map(Show, ns)) == ns
  {
    forall i | 0 <= i < |ns| ensures ToInt(Show(ns[i])) == ns[i] {
      ToIntShow(ns[i]);
    }
  }

  /** Trimming each padded piece leaves the rendered id, which is kept when it is not zero. */
  lemma PaddedPieces(ns: seq<int>, lead: string, trail: string)
    requires AllTrimChars(lead) && AllTrimChars(trail)
    requires forall i :: 0 <= i < |ns| ==> ns[i] != 0
    ensures SepFree(PadEach(ns, lead, trail), ',')
    ensures Map(Trim, PadEach(ns, lead, trail)) == Map(Show, ns)
    ensures KeepTruthy(Map(Show, ns)) == Map(Show, ns)
  {
    var pieces := PadEach(ns, lead, trail);
    assert ',' !in lead && ',' !in trail;
    forall i | 0 <= i < |ns| ensures ',' !in pieces[i] && Trim(pieces[i]) == Show(ns[i]) && !Falsy(Show(ns[i])) {
      TrimPadded(lead, Show(ns[i]), trail);
      ShowFalsy(ns[i]);
    }
  }

  /** The option written for a non-empty list of non-zero ids is truthy. */
  lemma RenderTruthy(ns: seq<int>, lead: string, trail: string)
    requires ns != [] && ns[0] != 0
    ensures !Falsy(Render(ns, lead, trail))
  {
    var pieces := PadEach(ns, lead, trail);
    var o := Render(ns, lead, trail);
    JoinHead(pieces, ',');
    ShowFalsy(ns[0]);
    assert |o| >= |pieces[0]| >= |Show(ns[0])| >= 1;
    if |o| == 1 {
      assert |pieces[0]| == |Show(ns[0])|;
      assert o == pieces[0] == Show(ns[0]);
    }
  }

  /** Padding around the ids is trimmed away: the option yields the rendered ids, in order. */
  lemma RenderedTokens(ns: seq<int>, lead: string, trail: string)
    requires AllTrimChars(lead) && AllTrimChars(trail)
    requires forall i :: 0 <= i < |ns| ==> ns[i] != 0
    ensures CategoryTokens(Some(Render(ns, lead, trail))) == Map(Show, ns)
  {
    var o := Render(ns, lead, trail);
    if ns != [] {
      var pieces := PadEach(ns, lead, trail);
      RenderTruthy(ns, lead, trail);
      assert CategoryTokens(Some(o)) == CommaTokens(o);
      PaddedPieces(ns, lead, trail);
      SplitJoin(pieces, ',');
      assert Split(o, ',') == pieces;
    } else {
      assert o == "" && Map(Show, ns) == [];
    }
  }

  /**
   * Whitespace around the ids does not change them: for any list of stored,
   * non-zero ids, the option that lists them padded with trim characters
   * yields exactly those ids, in order.
   */
  lemma RenderedIdsRoundTrip(s: Db, price: real, ns: seq<int>, lead: string, trail: string)
    requires price > 0.0 && AllTrimChars(lead) && AllTrimChars(trail)
    requires forall i :: 0 <= i < |ns| ==> ns[i] != 0 && ns[i] in Ids(s)
    ensures Handle(s, price, Some(Render(ns, lead, trail))) == Proceed(ns)
  {
    RenderedTokens(ns, lead, trail);
    ReadBack(ns);
  }
}

=== FILE: php_strings.dfy ===
/**
 * The few PHP string built-ins the core leans on: `trim` with its default
 * character list, `explode`/`implode` on a one-character separator,
 * string truthiness, and the `(int)` cast of a decimal string.
 */
module PhpStrings {

  /** The characters `trim` strips by default: space, tab, LF, CR, NUL and vertical tab. */
  predicate TrimChar(c: char) {
    c == ' ' || c == '\t' || c == '\n' || c == '\r' || c == '\0' || c == '\U{000B}'
  }

  predicate AllTrimChars(s: string) {
    forall i :: 0 <= i < |s| ==> TrimChar(s[i])
  }

  /** `ltrim`: a suffix of the input that does not start with a trim character. */
  function TrimLeft(s: string): (r: string)
    ensures |r| <= |s| && r == s[|s| - |r|..]
    ensures r == [] || !TrimChar(r[0])
  {
    if s == [] || !TrimChar(s[0]) then s else TrimLeft(s[1..])
  }

  /** `rtrim`: a prefix of the input that does not end with a trim character. */
  function TrimRight(s: string): (r: string)
    ensures |r| <= |s| && r == s[..|r|]
    ensures r == [] || !TrimChar(r[|r| - 1])
  {
    if s == [] || !TrimChar(s[|s| - 1]) then s else TrimRight(s[..|s| - 1])
  }

  /** `ltrim` cuts only trim characters. */
  lemma {:induction false} TrimLeftCuts(s: string)
    ensures AllTrimChars(s[..|s| - |TrimLeft(s)|])
    decreases |s|
  {
    if s != [] && TrimChar(s[0]) {
      var r := TrimLeft(s[1..]);
      assert TrimLeft(s) == r;
      TrimLeftCuts(s[1..]);
      var cut := s[1..][..|s| - 1 - |r|];
      forall k | 0 <= k < |s| - |r| ensures TrimChar(s[k]) {
        if k > 0 {
          assert s[k] == cut[k - 1];
        }
      }
    }
  }

  /** `rtrim` cuts only trim characters. */
  lemma {:induction false} TrimRightCuts(s: string)
    ensures AllTrimChars(s[|TrimRight(s)|..])
    decreases |s|
  {
    if s != [] && TrimChar(s[|s| - 1]) {
      var r := TrimRight(s[..|s| - 1]);
      TrimRightCuts(s[..|s| - 1]);
      assert s[|r|..] == s[..|s| - 1][|r|..] + [s[|s| - 1]];
    }
  }

  /** `r` is `s` with only trim characters cut from its two ends. */
  ghost predicate TrimmedFrom(s: string, r: string) {
    exists i :: 0 <= i <= |s| - |r| && r == s[i..i + |r|] && AllTrimChars(s[..i]) && AllTrimChars(s[i + |r|..])
  }

  /** `trim`: both ends stripped, so that neither end of the result is a trim character. */
  function Trim(s: string): (r: string)
    ensures |r| <= |s|
    ensures r == [] || (!TrimChar(r[0]) && !TrimChar(r[|r| - 1]))
  {
    var l := TrimLeft(s);
    var r := TrimRight(l);
    assert r != [] ==> r[0] == l[0];
    r
  }

  /** `trim` only cuts trim characters, and only from the two ends: its result is a slice of the input. */
  lemma TrimCutsOnlyEnds(s: string)
    ensures TrimmedFrom(s, Trim(s))
  {
    var l := TrimLeft(s);
    var r := TrimRight(l);
    TrimLeftCuts(s);
    TrimRightCuts(l);
    var i := |s| - |l|;
    assert r == s[i..i + |r|];
    assert s[i + |r|..] == l[|r|..];
  }

  /** Trimming twice is trimming once. */
  lemma TrimIdempotent(s: string)
    ensures Trim(Trim(s)) == Trim(s)
  {
    var t := Trim(s);
    assert TrimLeft(t) == t;
    assert TrimRight(t) == t;
  }

  /** Stripping trim characters from the front of a string that starts with a kept character gives that string. */
  lemma {:induction false} TrimLeftPadded(pad: string, x: string)
    requires AllTrimChars(pad) && (x == [] || !TrimChar(x[0]))
    ensures TrimLeft(pad + x) == x
    decreases |pad|
  {
    if pad != [] {
      assert (pad + x)[1..] == pad[1..] + x;
      TrimLeftPadded(pad[1..], x);
    }
  }

  /** Stripping trim characters from the back of a string that ends with a kept character gives that string. */
  lemma {:induction false} TrimRightPadded(x: string, pad: string)
    requires AllTrimChars(pad) && (x == [] || !TrimChar(x[|x| - 1]))
    ensures TrimRight(x + pad) == x
    decreases |pad|
  {
    if pad != [] {
      assert (x + pad)[..|x + pad| - 1] == x + pad[..|pad| - 1];
      TrimRightPadded(x, pad[..|pad| - 1]);
    }
  }

  /** `trim` undoes padding on both sides of a string whose ends are kept characters. */
  lemma TrimPadded(lead: string, x: string, trail: string)
    requires AllTrimChars(lead) && AllTrimChars(trail)
    requires x != [] && !TrimChar(x[0]) && !TrimChar(x[|x| - 1])
    ensures Trim(lead + x + trail) == x
  {
    assert lead + x + trail == lead + (x + trail);
    TrimLeftPadded(lead, x + trail);
    TrimRightPadded(x, trail);
  }

  /** PHP's truthiness of a string: only the empty string and `"0"` are false. */
  predicate Falsy(s: string) {
    s == "" || s == "0"
  }

  /** `implode(sep, pieces)`. */
  function Join(pieces: seq<string>, sep: char): string
    decreases |pieces|
  {
    if |pieces| == 0 then ""
    else if |pieces| == 1 then pieces[0]
    else pieces[0] + [sep] + Join(pieces[1..], sep)
  }

  predicate SepFree(pieces: seq<string>, sep: char) {
    forall i :: 0 <= i < |pieces| ==> sep !in pieces[i]
  }

  /** `explode(sep, s)`: the pieces between separators; at least one, none containing the separator, and they join back to `s`. */
  function Split(s: string, sep: char): (r: seq<string>)
    ensures |r| >= 1 && SepFree(r, sep)
    ensures Join(r, sep) == s
  {
    if s == [] then [""]
    else
      var rest := Split(s[1..], sep);
      if s[0] == sep then
        assert ([""] + rest)[1..] == rest;
        [""] + rest
      else
        var r := [[s[0]] + rest[0]] + rest[1..];
        assert r[1..] == rest[1..];
        r
  }

  /** The first piece of a joined list comes first, followed by a separator when more pieces follow. */
  lemma JoinHead(pieces: seq<string>, sep: char)
    requires |pieces| >= 1
    ensures |Join(pieces, sep)| >= |pieces[0]|
    ensures Join(pieces, sep)[..|pieces[0]|] == pieces[0]
    ensures |pieces| == 1 ==> Join(pieces, sep) == pieces[0]
    ensures |pieces| > 1 ==> Join(pieces, sep) == pieces[0] + [sep] + Join(pieces[1..], sep)
  {
  }

  /** The position of the first separator in `s`, or `|s|` when there is none. */
  function SepIndex(s: string, sep: char): (r: nat)
    ensures r <= |s|
  {
    if s == [] || s[0] == sep then 0 else 1 + SepIndex(s[1..], sep)
  }

  lemma {:induction false} SepIndexAfter(x: string, rest: string, sep: char)
    requires sep !in x
    ensures SepIndex(x + rest, sep) == |x| + SepIndex(rest, sep)
    decreases |x|
  {
    if x != [] {
      assert (x + rest)[1..] == x[1..] + rest;
      assert x[0] in x && (x + rest)[0] == x[0];
      assert forall c :: c in x[1..] ==> c in x;
      SepIndexAfter(x[1..], rest, sep);
    } else {
      assert x + rest == rest;
    }
  }

  /** In a join of separator-free pieces, the first separator ends the first piece. */
  lemma JoinFirstSep(pieces: seq<string>, sep: char)
    requires |pieces| >= 1 && SepFree(pieces, sep)
    ensures SepIndex(Join(pieces, sep), sep) == |pieces[0]|
    ensures |Join(pieces, sep)| == |pieces[0]| <==> |pieces| == 1
  {
    if |pieces| == 1 {
      SepIndexAfter(pieces[0], [], sep);
      assert pieces[0] + [] == pieces[0];
    } else {
      assert Join(pieces, sep) == pieces[0] + ([sep] + Join(pieces[1..], sep));
      SepIndexAfter(pieces[0], [sep] + Join(pieces[1..], sep), sep);
    }
  }

  /** Joining separator-free pieces loses nothing: different lists join to different strings. */
  lemma {:induction false} JoinInjective(ps: seq<string>, qs: seq<string>, sep: char)
    requires |ps| >= 1 && |qs| >= 1 && SepFree(ps, sep) && SepFree(qs, sep)
    requires Join(ps, sep) == Join(qs, sep)
    ensures ps == qs
    decreases |ps|
  {
    var s := Join(ps, sep);
    JoinFirstSep(ps, sep);
    JoinFirstSep(qs, sep);
    assert ps[0] == s[..|ps[0]|] == qs[0];
    assert (|ps| == 1) == (|qs| == 1);
    if |ps| > 1 {
      var n := |ps[0]| + 1;
      assert Join(ps[1..], sep) == s[n..] == Join(qs[1..], sep);
      assert SepFree(ps[1..], sep) && SepFree(qs[1..], sep) by {
        forall i | 0 <= i < |ps[1..]| ensures sep !in ps[1..][i] { assert ps[1..][i] == ps[i + 1]; }
        forall i | 0 <= i < |qs[1..]| ensures sep !in qs[1..][i] { assert qs[1..][i] == qs[i + 1]; }
      }
      JoinInjective(ps[1..], qs[1..], sep);
      assert ps == [ps[0]] + ps[1..] && qs == [qs[0]] + qs[1..];
    }
  }

  /** `explode` recovers the pieces `implode` joined, when none of them contains the separator. */
  lemma SplitJoin(pieces: seq<string>, sep: char)
    requires |pieces| >= 1 && SepFree(pieces, sep)
    ensures Split(Join(pieces, sep), sep) == pieces
  {
    JoinInjective(Split(Join(pieces, sep), sep), pieces, sep);
  }

  /** Joining two non-empty lists is joining each and putting a separator between. */
  lemma {:induction false} JoinAppend(ps: seq<string>, qs: seq<string>, sep: char)
    requires |ps| >= 1 && |qs| >= 1
    ensures Join(ps + qs, sep) == Join(ps, sep) + [sep] + Join(qs, sep)
    decreases |ps|
  {
    if |ps| == 1 {
      assert (ps + qs)[1..] == qs;
    } else {
      assert (ps + qs)[1..] == ps[1..] + qs;
      JoinAppend(ps[1..], qs, sep);
    }
  }

  /** `explode` at a separator splits the input into the pieces before it and the pieces after it. */
  lemma SplitAppend(a: string, b: string, sep: char)
    ensures Split(a + [sep] + b, sep) == Split(a, sep) + Split(b, sep)
  {
    var ps := Split(a, sep) + Split(b, sep);
    JoinAppend(Split(a, sep), Split(b, sep), sep);
    assert SepFree(ps, sep) by {
      forall i | 0 <= i < |ps| ensures sep !in ps[i] {
        if i >= |Split(a, sep)| {
          assert ps[i] == Split(b, sep)[i - |Split(a, sep)|];
        }
      }
    }
    JoinInjective(Split(a + [sep] + b, sep), ps, sep);
  }

  predicate IsDigit(c: char) {
    '0' <= c <= '9'
  }

  predicate AllDigits(s: string) {
    forall i :: 0 <= i < |s| ==> IsDigit(s[i])
  }

  /** The whitespace the `(int)` cast skips before a number: space, tab, LF, CR, vertical tab and form feed. */
  predicate CastSpace(c: char) {
    c == ' ' || c == '\t' || c == '\n' || c == '\r' || c == '\U{000B}' || c == '\U{000C}'
  }

  function SkipCastSpace(s: string): (r: string)
    ensures |r| <= |s| && r == s[|s| - |r|..]
    ensures r == [] || !CastSpace(r[0])
  {
    if s == [] || !CastSpace(s[0]) then s else SkipCastSpace(s[1..])
  }

  /** The longest run of digits at the front of `s`. */
  function LeadingDigits(s: string): (r: string)
    ensures |r| <= |s| && r == s[..|r|] && AllDigits(r)
    ensures |r| == |s| || !IsDigit(s[|r|])
  {
    if s == [] || !IsDigit(s[0]) then []
    else
      var r := LeadingDigits(s[1..]);
      assert [s[0]] + r == s[..|r| + 1];
      [s[0]] + r
  }

  /** The value of a string of decimal digits, most significant first. */
  function DigitsValue(ds: string): nat
    requires AllDigits(ds)
    decreases |ds|
  {
    if ds == [] then 0
    else DigitsValue(ds[..|ds| - 1]) * 10 + (ds[|ds| - 1] as int - '0' as int)
  }

  /**
   * The `(int)` cast of a string: leading whitespace, an optional sign, then
   * the longest digit prefix; no digits gives 0.
   */
  function ToInt(s: string): int {
    var t := SkipCastSpace(s);
    if |t| > 0 && t[0] == '-' then 0 - DigitsValue(LeadingDigits(t[1..]))
    else if |t| > 0 && t[0] == '+' then DigitsValue(LeadingDigits(t[1..]))
    else DigitsValue(LeadingDigits(t))
  }

  function DigitChar(d: int): char
    requires 0 <= d < 10
  {
    ['0', '1', '2', '3', '4', '5', '6', '7', '8', '9'][d]
  }

  /** The decimal digits of `n` without leading zeros. */
  function ShowNat(n: nat): (r: string)
    ensures r != [] && AllDigits(r)
    ensures r[0] == '0' ==> n == 0
    decreases n
  {
    if n < 10 then [DigitChar(n)]
    else
      var r := ShowNat(n / 10) + [DigitChar(n % 10)];
      assert r[0] == ShowNat(n / 10)[0];
      r
  }

  /** How PHP renders an integer in a string. */
  function Show(n: int): (r: string)
    ensures r != [] && r[0] != '+' && !CastSpace(r[0]) && !TrimChar(r[0]) && !TrimChar(r[|r| - 1])
    ensures AllDigits(r[1..]) && (IsDigit(r[0]) || r[0] == '-')
    ensures ',' !in r
  {
    if n < 0 then "-" + ShowNat(-n) else ShowNat(n)
  }

  lemma {:induction false} DigitsValueShow(n: nat)
    ensures DigitsValue(ShowNat(n)) == n
    decreases n
  {
    if n >= 10 {
      var r := ShowNat(n);
      assert r[..|r| - 1] == ShowNat(n / 10);
      DigitsValueShow(n / 10);
    }
  }

  /** The `(int)` cast reads back every rendered integer. */
  lemma ToIntShow(n: int)
    ensures ToInt(Show(n)) == n
  {
    var m := if n < 0 then -n else n;
    DigitsValueShow(m);
    if n < 0 {
      ToIntNegative(ShowNat(m));
    } else {
      ToIntDigits(ShowNat(m));
    }
  }

  /** The cast of a plain digit string is its value. */
  lemma ToIntDigits(ds: string)
    requires ds != [] && AllDigits(ds)
    ensures ToInt(ds) == DigitsValue(ds)
  {
    assert SkipCastSpace(ds) == ds;
    LeadingDigitsAll(ds);
  }

  /** The cast of a minus sign followed by digits is the negated value. */
  lemma ToIntNegative(ds: string)
    requires AllDigits(ds)
    ensures ToInt("-" + ds) == 0 - DigitsValue(ds)
  {
    var t := "-" + ds;
    assert t[0] == '-' && t[1..] == ds;
    assert SkipCastSpace(t) == t;
    LeadingDigitsAll(ds);
  }

  /** A string of digits is its own digit prefix. */
  lemma {:induction false} LeadingDigitsAll(ds: string)
    requires AllDigits(ds)
    ensures LeadingDigits(ds) == ds
    decreases |ds|
  {
    if ds != [] {
      LeadingDigitsAll(ds[1..]);
      assert [ds[0]] + ds[1..] == ds;
    }
  }

  /** Zero is the only integer rendered as a falsy string. */
  lemma ShowFalsy(n: int)
    ensures Falsy(Show(n)) <==> n == 0
  {
    if n < 0 {
      assert Show(n)[0] == '-';
    } else if n >= 10 {
      assert |Show(n)| >= 2;
    }
  }
}

=== FILE: store_invariants.dfy ===
/**
 * The store invariant the service protects: every parent pointer names a
 * stored category and every ancestor chain stops (no cycle). Each accepted
 * create, update and delete keeps it.
 */
module StoreInvariants {
  import opened Base
  import opened CategoryRepository
  import opened Ancestry
  import opened CategoryService

  ghost predicate Consistent(s: Db) {
    ParentsExist(s) && Acyclic(s)
  }

  /** Under referential validity an ancestor chain never leaves the store. */
  lemma {:induction false} ChainStaysInStore(s: Db, y: int, j: nat)
    requires ParentsExist(s) && y in Ids(s)
    ensures Ancestor(s, y, j).Some? ==> Ancestor(s, y, j).value in Ids(s)
    decreases j
  {
    if j > 0 {
      match ParentOf(s, y)
      case None =>
      case Some(q) =>
        assert FindById(s, y).value in s.rows;
        ChainStaysInStore(s, q, j - 1);
    }
  }

  /** A chain of `s` that stops without meeting `x` stops in any `s'` that differs from `s` only at `x`. */
  lemma {:induction false} AvoidingChainUnchanged(s: Db, s': Db, x: int, y: int, m: nat)
    requires forall z :: z != x ==> FindById(s', z) == FindById(s, z)
    requires Ancestor(s, y, m) == None
    requires forall j: nat :: Ancestor(s, y, j) != Some(x)
    ensures Ancestor(s', y, m) == None
    decreases m
  {
    assert Ancestor(s, y, 0) != Some(x);
    assert ParentOf(s', y) == ParentOf(s, y);
    match ParentOf(s, y)
    case None =>
    case Some(q) =>
      forall j: nat ensures Ancestor(s, q, j) != Some(x) {
        assert Ancestor(s, y, j + 1) == Ancestor(s, q, j);
      }
      AvoidingChainUnchanged(s, s', x, q, m - 1);
  }

  /**
   * If `s'` differs from `s` only at `x` and the chain of `x` stops in `s'`,
   * then every chain that stopped in `s` stops in `s'`.
   */
  lemma {:induction false} RedirectStops(s: Db, s': Db, x: int, y: int, m: nat)
    requires forall z :: z != x ==> FindById(s', z) == FindById(s, z)
    requires exists k: nat :: Ancestor(s', x, k) == None
    requires Ancestor(s, y, m) == None
    ensures exists k: nat :: Ancestor(s', y, k) == None
    decreases m
  {
    if y != x {
      assert ParentOf(s', y) == ParentOf(s, y);
      match ParentOf(s, y)
      case None =>
        assert Ancestor(s', y, 1) == None;
      case Some(q) =>
        RedirectStops(s, s', x, q, m - 1);
        var k: nat :| Ancestor(s', q, k) == None;
        assert Ancestor(s', y, k + 1) == None;
    }
  }

  /** Under referential validity no chain from a stored category reaches an id that is not stored. */
  lemma FreshNeverReached(s: Db, x: int)
    requires ParentsExist(s) && x !in Ids(s)
    ensures forall y | y in Ids(s) :: forall j: nat :: Ancestor(s, y, j) != Some(x)
  {
    forall y, j: nat | y in Ids(s) ensures Ancestor(s, y, j) != Some(x) {
      ChainStaysInStore(s, y, j);
    }
  }

  /** An accepted `createCategory` keeps the store consistent. */
  lemma CreateKeepsConsistent(s: Db, name: string, parentId: Option<int>)
    requires Consistent(s)
    requires CreateCategory(s, name, parentId).Ok?
    ensures Consistent(CreateCategory(s, name, parentId).value.0)
  {
    var (s', c) := CreateCategory(s, name, parentId).value;
    forall r | r in s'.rows && r.parentId.Some? ensures r.parentId.value in Ids(s') {
      assert FindById(s', r.id) == Some(r);
      if r.id != c.id {
        assert FindById(s, r.id) == Some(r);
      }
    }
    FreshNeverReached(s, c.id);
    assert exists k: nat :: Ancestor(s', c.id, k) == None by {
      match parentId
      case None =>
        assert Ancestor(s', c.id, 1) == None;
      case Some(p) =>
        var m: nat :| Ancestor(s, p, m) == None;
        AvoidingChainUnchanged(s, s', c.id, p, m);
        assert Ancestor(s', c.id, m + 1) == None;
    }
    forall y | y in Ids(s') ensures exists k: nat :: Ancestor(s', y, k) == None {
      if y != c.id {
        var m: nat :| Ancestor(s, y, m) == None;
        AvoidingChainUnchanged(s, s', c.id, y, m);
      }
    }
  }

  /** An accepted `updateCategory` keeps the store consistent: the cycle check is enough. */
  lemma UpdateKeepsConsistent(s: Db, id: int, name: string, parentId: Option<int>)
    requires Consistent(s)
    requires UpdateCategory(s, id, name, parentId).Ok?
    ensures Consistent(UpdateCategory(s, id, name, parentId).value.0)
  {
    var (s', c) := UpdateCategory(s, id, name, parentId).value;
    forall r | r in s'.rows && r.parentId.Some? ensures r.parentId.value in Ids(s') {
      assert FindById(s', r.id) == Some(r);
      if r.id != id {
        assert FindById(s, r.id) == Some(r);
      }
    }
    assert ParentOf(s', id) == parentId;
    assert exists k: nat :: Ancestor(s', id, k) == None by {
      match parentId
      case None =>
        assert Ancestor(s', id, 1) == None;
      case Some(p) =>
        var m: nat :| Ancestor(s, p, m) == None;
        forall j: nat ensures Ancestor(s, p, j) != Some(id) {
        }
        AvoidingChainUnchanged(s, s', id, p, m);
        assert Ancestor(s', id, m + 1) == None;
    }
    forall y | y in Ids(s') ensures exists k: nat :: Ancestor(s', y, k) == None {
      var m: nat :| Ancestor(s, y, m) == None;
      RedirectStops(s, s', id, y, m);
    }
  }

  /** Chains of the store after deleting `x` are the old chains with `x` skipped, so they stop too. */
  lemma {:induction false} BypassStops(s: Db, s': Db, x: int, y: int, m: nat)
    requires ParentOf(s, x) != Some(x)
    requires forall z :: z != x ==> ParentOf(s', z) == Bypass(s, x, z)
    requires y != x && Ancestor(s, y, m) == None
    ensures exists k: nat :: Ancestor(s', y, k) == None
    decreases m
  {
    match ParentOf(s, y)
    case None =>
      assert Ancestor(s', y, 1) == None;
    case Some(q) =>
      if q != x {
        assert Ancestor(s, q, m - 1) == None;
        BypassStops(s, s', x, q, m - 1);
        var k: nat :| Ancestor(s', q, k) == None;
        HopStops(s', y, q, k);
      } else {
        match ParentOf(s, x)
        case None =>
          assert Ancestor(s', y, 1) == None;
        case Some(g) =>
          assert Ancestor(s, y, m) == Ancestor(s, x, m - 1);
          assert Ancestor(s, x, m - 1) == Ancestor(s, g, m - 2);
          BypassStops(s, s', x, g, m - 2);
          var k: nat :| Ancestor(s', g, k) == None;
          HopStops(s', y, g, k);
      }
  }

  /** The parent of `y` once `x` is skipped: the parent of `x` when `y` pointed at `x`. */
  function Bypass(s: Db, x: int, y: int): Option<int> {
    if ParentOf(s, y) == Some(x) then ParentOf(s, x) else ParentOf(s, y)
  }

  /** Outside the deleted id, a parent pointer is kept, or skips the deleted id when it pointed there. */
  lemma BypassParent(s: Db, s': Db, x: int, y: int)
    requires forall z :: z != x ==> FindById(s', z) == match FindById(s, z)
                                                       case None => None
                                                       case Some(c) => Some(Adopt(c, x, ParentOf(s, x)))
    requires y != x
    ensures ParentOf(s', y) == Bypass(s, x, y)
  {
    assert FindById(s', y) == match FindById(s, y)
                              case None => None
                              case Some(c) => Some(Adopt(c, x, ParentOf(s, x)));
  }

  /**
   * A step given to the solver, not a property of the model: one unfolding
   * of `Ancestor`. A chain that stops `k` hops above the parent stops
   * `k + 1` hops above the child.
   */
  lemma HopStops(s: Db, y: int, q: int, k: nat)
    requires ParentOf(s, y) == Some(q) && Ancestor(s, q, k) == None
    ensures Ancestor(s, y, k + 1) == None
  {
  }

  /** An accepted `deleteCategory` keeps the store consistent: no child is left pointing at the deleted id. */
  lemma DeleteKeepsConsistent(s: Db, id: int)
    requires Consistent(s) && id in Ids(s)
    ensures Consistent(DeleteCategory(s, id).value)
  {
    var s' := DeleteCategory(s, id).value;
    NoSelfParent(s, id);
    forall z | z != id ensures FindById(s', z) == match FindById(s, z)
                                                   case None => None
                                                   case Some(c) => Some(Adopt(c, id, ParentOf(s, id)))
    {
    }
    forall r | r in s'.rows && r.parentId.Some? ensures r.parentId.value in Ids(s') {
      assert FindById(s', r.id) == Some(r);
      var before := FindById(s, r.id).value;
      assert before in s.rows;
      if before.parentId == Some(id) {
        assert FindById(s, id).value in s.rows;
      }
    }
    forall z | z != id ensures ParentOf(s', z) == Bypass(s, id, z) {
      BypassParent(s, s', id, z);
    }
    forall y | y in Ids(s') ensures exists k: nat :: Ancestor(s', y, k) == None {
      var m: nat :| Ancestor(s, y, m) == None;
      BypassStops(s, s', id, y, m);
    }
  }

  /** After deleting from a consistent store no record refers to the deleted id. */
  lemma DeleteLeavesNoReference(s: Db, id: int)
    requires Acyclic(s) && id in Ids(s)
    ensures forall c :: c in All(DeleteCategory(s, id).value) ==> c.parentId != Some(id)
  {
    NoSelfParent(s, id);
  }

  /**
   * On an acyclic store the walk always terminates, and an update is accepted
   * exactly when the category exists and the proposed parent is null, or an
   * existing other category that does not descend from it.
   */
  lemma UpdateAcceptedExactly(s: Db, id: int, name: string, parentId: Option<int>)
    requires Acyclic(s)
    ensures UpdateCategory(s, id, name, parentId) != Err(AncestorWalkDiverges)
    ensures UpdateCategory(s, id, name, parentId).Ok? <==>
              id in Ids(s) && (parentId.None? ||
                (parentId.value != id && parentId.value in Ids(s) && !IsStrictAncestor(s, id, parentId.value)))
    ensures (id in Ids(s) && parentId.Some? && parentId.value != id && parentId.value in Ids(s)
              && IsStrictAncestor(s, id, parentId.value)) ==> UpdateCategory(s, id, name, parentId) == Err(CyclicHierarchy)
  {
    if parentId.Some? {
      IsDescendantCorrect(s, parentId.value, id);
    }
  }
}
